=== FILE: README.md ===
# JellyFit in Dafny

A model of the core of JellyFit, a browser-only workout logger. It covers:

- the data model: sessions, exercises, sets, profiles, weekly plans and templates;
- the persistence layer over the browser's key-value store;
- the simulated account service and its sign-in screen;
- the active-session editor and the timer widget;
- the dashboard, training-log, new-session, profile-wizard and coach-chat screens;
- the app shell that routes between views and wires the screens to storage;
- the AI coaching service, abstracted to "what the model answered".

Every screen is modelled as a pure state and pure transitions. React's
`useState` updates become functional record updates. An effect or
asynchronous call is one atomic step. The clock, random ids, the chosen file,
`window.confirm` and the model's answers are parameters.

Modules follow the source files:

| module | file |
|---|---|
| `Types` | `types.dfy` |
| `Text` | `text.dfy` |
| `Seqs` | `seqs.dfy` |
| `Storage` | `storage.dfy` |
| `Auth` | `auth.dfy` |
| `AuthView` | `auth_view.dfy` |
| `ActiveSession` | `active_session.dfy` |
| `Timer` | `timer.dfy` |
| `Gemini` | `gemini.dfy` |
| `Dashboard` | `dashboard.dfy` |
| `Tracker` | `tracker.dfy` |
| `NewSession` | `new_session.dfy` |
| `ProfileWizard` | `profile_wizard.dfy` |
| `Chat` | `chat.dfy` |
| `Constants` | `constants.dfy` |
| `App` | `app.dfy` |

`Text` and `Seqs` hold the string and list helpers these screens use: trim,
lower-case, `includes`, decimal digits, `filter` and `find`.

## Model

| member | source | states |
|---|---|---|
| Types.ParseSessionType | jellyfit/types.ts:4-10 | Only the five enum strings parse; each parses back to the member whose value it is |
| Types.SessionTypeNameRoundTrip | jellyfit/types.ts:4-10 | Every session type's string value reads back as that type, so the five values are distinct |
| Types.ParseExperienceLevel | jellyfit/types.ts:55 | Only the three level strings parse, each to its own level |
| Types.ExperienceLevelRoundTrip | jellyfit/types.ts:55 | Every experience level's string reads back as that level |
| Types.ParseViewName | jellyfit/types.ts:2 | Only the ten view strings parse, each to its own view |
| Types.ViewNameRoundTrip | jellyfit/types.ts:2 | Every view's string reads back as that view |
| Text.Trim | jellyfit/views/ActiveSessionView.tsx:58 | `trim()`: no longer than the input; empty exactly when the input is all whitespace; neither end is whitespace; it is the slice between the leading and trailing whitespace |
| Text.TrimIdempotent | jellyfit/views/ActiveSessionView.tsx:58 | Trimming twice is trimming once |
| Text.Lower | jellyfit/views/NewSessionView.tsx:86 | `toLowerCase()`: same length, each character lowered, no upper-case letter left |
| Text.LowerIdempotent | jellyfit/views/NewSessionView.tsx:86 | Lower-casing twice is lower-casing once |
| Text.IncludesAt | jellyfit/views/NewSessionView.tsx:86 | `includes(p)` holds exactly when `p` is a prefix of some suffix |
| Text.NatToString | jellyfit/services/geminiService.ts:105 | Decimal rendering of a number: at least one digit, all digits, no leading zero, one digit exactly below 10 |
| Text.NatToStringRoundTrip | jellyfit/services/geminiService.ts:105 | Reading the decimal rendering back gives the number |
| Text.NatToStringInjective | jellyfit/services/geminiService.ts:105 | Two numbers render alike exactly when they are equal |
| Text.PadStart2 | jellyfit/components/Timer.tsx:53-55 | `padStart(2, '0')`: at least two long, zeros in front of the input and the input at the end, same numeric value |
| Text.Pad2 | jellyfit/components/Timer.tsx:53-55 | A number rendered as decimal digits only, exactly two below 100 (zero-padded) and with no leading zero when wider, reads back as the number |
| Seqs.Filter | jellyfit/services/storageService.ts:66-68 | `filter`: the elements that pass, as a subsequence of the input (same order), each exactly as often as in the input, and no other element |
| Seqs.FilterUnique | jellyfit/services/storageService.ts:66-68 | Any subsequence of the input that holds every passing element as often as the input does, and nothing else, is the filter's result, so the contract above determines `filter` completely |
| Seqs.FilterAppend | jellyfit/views/DashboardView.tsx:32-37 | Filtering a concatenation is the concatenation of the filtered parts |
| Seqs.FilterKeepsAll | jellyfit/views/NewSessionView.tsx:86 | When every element passes, filtering returns the list unchanged |
| Seqs.FindFirst | jellyfit/services/authService.ts:15 | `find`: the returned index is the first whose element matches, or the length when none does |
| Storage.KeysDistinct | jellyfit/services/storageService.ts:4-8 | The three storage keys are pairwise distinct |
| Storage.GetSessions | jellyfit/services/storageService.ts:12-20 | A missing or unparseable key reads as `[]`; any non-empty result is what is stored |
| Storage.SaveSession | jellyfit/services/storageService.ts:22-31 | A successful save returns the session followed by the stored history, reads back as that list, and writes no other key; a failed write returns `[]` and changes nothing |
| Storage.SaveSessionPrepends | jellyfit/services/storageService.ts:22-31 | After a save the stored history is one longer, starts with the new session and keeps the old history after it |
| Storage.GetUserProfile | jellyfit/services/storageService.ts:35-42 | A missing or unparseable key reads as null; any profile returned is the stored one |
| Storage.SaveUserProfile | jellyfit/services/storageService.ts:44-46 | The saved profile reads back, and no other key changes |
| Storage.GetWeeklyPlan | jellyfit/services/storageService.ts:49-56 | A missing or unparseable key reads as null; any plan returned is the stored one |
| Storage.SaveWeeklyPlan | jellyfit/services/storageService.ts:58-60 | The saved plan reads back, and no other key changes |
| Storage.SavesAreIndependent | jellyfit/services/storageService.ts:4-60 | A save under any one key leaves what the other two getters return unchanged |
| Storage.MarkDay | jellyfit/services/storageService.ts:66-69 | Same plan and the same number of days; each day differs only in its flag; a day is completed afterwards exactly when it was already, or it bears the given name |
| Storage.MarkPlanDayComplete | jellyfit/services/storageService.ts:63-71 | With no readable plan stored nothing changes; otherwise the stored plan becomes the marked plan and no other key changes |
| Storage.MarkDayIdempotent | jellyfit/services/storageService.ts:66-69 | Marking a day twice is marking it once |
| Storage.MarkDayMonotone | jellyfit/services/storageService.ts:66-69 | Marking never clears a completed day; every day with the name ends completed, rest days included |
| Storage.MarkPlanDayCompleteIdempotent | jellyfit/services/storageService.ts:63-71 | Marking the same day twice in the store is marking it once |
| Auth.SessionUser | jellyfit/services/authService.ts:21-28 | The signed-in user carries the record's id, name and email and no avatar; the password is dropped |
| Auth.Login | jellyfit/services/authService.ts:10-29 | Rejected with "Invalid credentials" exactly when no record matches both email and password; otherwise the user comes from the first record that matches both (`find`), has the given email, and becomes the current user with the users list unchanged |
| Auth.Signup | jellyfit/services/authService.ts:31-58 | Rejected with "User already exists" exactly when the email is taken; otherwise the new record is appended and its user becomes current |
| Auth.SignupPreservesUniqueEmails | jellyfit/services/authService.ts:36-48 | Sign-up keeps emails unique on the users list |
| Auth.LoginAfterSignup | jellyfit/services/authService.ts:10-58 | Signing in with the email and password just registered signs in as the new user |
| Auth.SignupTwiceRejected | jellyfit/services/authService.ts:36-38 | A second sign-up with the same email is rejected |
| Auth.WrongPasswordRejected | jellyfit/services/authService.ts:14-19 | With unique emails, a wrong password for a known email is rejected |
| Auth.MockGoogleLogin | jellyfit/services/authService.ts:60-72 | Signs in the fixed Google account and leaves the users list alone |
| Auth.Logout | jellyfit/services/authService.ts:74-76 | Nobody is signed in afterwards; the users list stays |
| Auth.CurrentUserIsLastSignedIn | jellyfit/services/authService.ts:10-81 | `getCurrentUser` gives the user the last successful login or sign-up returned, and nobody after a logout |
| AuthView.HandleChange | jellyfit/views/AuthView.tsx:22-25 | The edited input reads back the typed value, the other inputs keep theirs, and the error is cleared |
| AuthView.SelectMode | jellyfit/views/AuthView.tsx:75-83 | Switches mode and clears the error; typed inputs stay |
| AuthView.ErrorText | jellyfit/views/AuthView.tsx:42 | The banner text is never empty, and it is the error's own message when that is non-empty |
| AuthView.Submit | jellyfit/views/AuthView.tsx:27-46 | Nothing happens while loading or with an empty required input. Otherwise loading is over afterwards and the inputs are kept. A user is handed on exactly when no error shows. Sign-in succeeds exactly when `login` does. Sign-up without a name says "Name is required". With a name, sign-up succeeds exactly when `signup` does |
| AuthView.SignUpThenSignIn | jellyfit/views/AuthView.tsx:27-46 | Signing up and then signing in with the same form signs in as the new user, with no error |
| AuthView.GoogleSignIn | jellyfit/views/AuthView.tsx:48-58 | Disabled while loading. A success signs in the Google account and leaves any earlier error showing. A failure shows "Google sign in failed" |
| ActiveSession.Start | jellyfit/views/ActiveSessionView.tsx:26-35 | One fresh exercise per template name, in order, with one default set each; the clock starts at zero |
| ActiveSession.CreateSet | jellyfit/views/ActiveSessionView.tsx:49-55 | A new set has the given id, ten reps, no weight, no time, and is not completed |
| ActiveSession.Tick | jellyfit/views/ActiveSessionView.tsx:44-47 | One second more; nothing else changes |
| ActiveSession.SetAddingExercise | jellyfit/views/ActiveSessionView.tsx:57-68 | Opens or closes the name input and touches nothing else |
| ActiveSession.TypeExerciseName | jellyfit/views/ActiveSessionView.tsx:57-68 | The typed text becomes the pending name; nothing else changes |
| ActiveSession.AddExercise | jellyfit/views/ActiveSessionView.tsx:57-68 | A blank name changes nothing. Otherwise one fresh exercise named with the trimmed input is appended after the old list, and the input is cleared and closed |
| ActiveSession.AddedNameIsTrimmed | jellyfit/views/ActiveSessionView.tsx:58-62 | An added exercise's name is non-empty and neither starts nor ends with whitespace |
| ActiveSession.MapExercise | jellyfit/views/ActiveSessionView.tsx:71-83 | Exactly the exercises with the given id are transformed, in place |
| ActiveSession.MapSet | jellyfit/views/ActiveSessionView.tsx:88-93 | Exactly the sets with the given id are transformed, in place |
| ActiveSession.AddSet | jellyfit/views/ActiveSessionView.tsx:70-84 | Only the target exercise changes, and only by one set appended at the end. The new set has the fresh id and is not completed. It copies the last set's reps, weight and time, or is the default set when there were no sets |
| ActiveSession.AddSetCarriesWeightAndReps | jellyfit/views/ActiveSessionView.tsx:70-84 | After 8 reps at 40 kg the added set is 8 reps at 40 kg, not completed |
| ActiveSession.UpdateSet | jellyfit/views/ActiveSessionView.tsx:86-96 | The matching set reads back the new value in that field; its other fields, its id and its flag stay; every other set is unchanged |
| ActiveSession.UpdateUnknownSetIsNoOp | jellyfit/views/ActiveSessionView.tsx:86-96 | Updating a set that does not exist changes nothing |
| ActiveSession.ToggleSetComplete | jellyfit/views/ActiveSessionView.tsx:98-108 | Exactly the matching sets have their flag flipped; nothing else changes |
| ActiveSession.ToggleSetCompleteTwice | jellyfit/views/ActiveSessionView.tsx:98-108 | Toggling a set twice restores the list |
| ActiveSession.ToggleUnknownSetIsNoOp | jellyfit/views/ActiveSessionView.tsx:98-108 | Toggling a set that does not exist changes nothing |
| ActiveSession.RemoveSet | jellyfit/views/ActiveSessionView.tsx:110-117 | The target exercise keeps its sets with another id, in their order and each as often as before, and no other set; other exercises are unchanged |
| ActiveSession.RemoveSetUndoesAddSet | jellyfit/views/ActiveSessionView.tsx:70-117 | Removing the set just added under a fresh id restores the list from before the add |
| ActiveSession.PressTrash | jellyfit/views/ActiveSessionView.tsx:290-292 | The trash button leaves every exercise with another id unchanged |
| ActiveSession.TrashDropsLastSet | jellyfit/views/ActiveSessionView.tsx:290-292 | When set ids are distinct, trash drops exactly the last set |
| ActiveSession.RemoveExercise | jellyfit/views/ActiveSessionView.tsx:119-123 | Without confirmation nothing changes; with it, the exercises with another id remain, in their order and each as often as before, and no other |
| ActiveSession.RemoveUnknownExerciseIsNoOp | jellyfit/views/ActiveSessionView.tsx:119-123 | Removing an absent id changes nothing |
| ActiveSession.ToggleTimed | jellyfit/views/ActiveSessionView.tsx:125-130 | Exactly the matching exercises flip their timed flag; their sets stay as they were |
| ActiveSession.ToggleTimedTwice | jellyfit/views/ActiveSessionView.tsx:125-130 | Toggling timed mode twice restores the list |
| ActiveSession.MediaKindOf | jellyfit/views/ActiveSessionView.tsx:136 | Video exactly when the MIME type starts with "video" |
| ActiveSession.AttachMedia | jellyfit/views/ActiveSessionView.tsx:132-139 | With no file nothing changes; otherwise only the matching exercises get the file's URL and kind |
| ActiveSession.ClearMedia | jellyfit/views/ActiveSessionView.tsx:215 | Only the matching exercises lose their URL; their media kind stays |
| ActiveSession.ClearAfterAttachKeepsKind | jellyfit/views/ActiveSessionView.tsx:132-139 | After attaching and clearing, the URL is gone but the kind of the file stays |
| ActiveSession.DurationMinutes | jellyfit/views/ActiveSessionView.tsx:146 | The least whole number of minutes covering the elapsed seconds |
| ActiveSession.DurationExamples | jellyfit/views/ActiveSessionView.tsx:146 | 0 s is 0 min, 1 s and 60 s are 1 min, and 61 s is 2 min |
| ActiveSession.Finish | jellyfit/views/ActiveSessionView.tsx:141-151 | The session's type string parses to the template's type; it is a circuit exactly for circuit templates; it records the duration rounded up and exactly the exercise list |
| ActiveSession.TicksAdd | jellyfit/views/ActiveSessionView.tsx:44-47 | After n ticks the clock has grown by n, and the exercises are untouched |
| ActiveSession.TicksThenFinish | jellyfit/views/ActiveSessionView.tsx:141-151 | Finishing after n ticks from zero records ceil(n/60) minutes and the same exercises |
| ActiveSession.FormatElapsed | jellyfit/views/ActiveSessionView.tsx:153-157 | `mm:ss` with a colon before the last two characters and decimal digits everywhere else; a minutes field wider than two has no leading zero; the seconds field is below 60; reading the clock back gives the elapsed seconds |
| ActiveSession.FormatElapsedInjective | jellyfit/views/ActiveSessionView.tsx:153-157 | Different elapsed times show different clocks |
| Timer.Create | jellyfit/components/Timer.tsx:11-14 | Shows the initial value, runs when auto-started, and is a countdown exactly when the initial value is positive |
| Timer.Tick | jellyfit/components/Timer.tsx:19-33 | Validity is kept. A stopped timer is unchanged. Completion fires exactly for a running countdown at one second or less. After a tick the timer runs exactly when it ran before and did not complete. A countdown goes down by one or lands on 0. A stopwatch goes up by one |
| Timer.Toggle | jellyfit/components/Timer.tsx:41 | Flips running and nothing else |
| Timer.Reset | jellyfit/components/Timer.tsx:43-46 | Stopped, showing the initial value, with the initial value kept and, for a valid timer, the mode kept |
| Timer.ResetIsFreshTimer | jellyfit/components/Timer.tsx:11-46 | A reset gives back the widget as mounted without auto-start |
| Timer.CountdownCountsDown | jellyfit/components/Timer.tsx:22-28 | A running countdown showing k drops by exactly n after n < k firings, with no completion |
| Timer.CountdownRunsOut | jellyfit/components/Timer.tsx:22-28 | A running countdown showing k ≥ 1 is at 0 and stopped after k firings, having completed exactly once |
| Timer.StopwatchCountsUp | jellyfit/components/Timer.tsx:30 | A running stopwatch shows n more after n firings |
| Timer.StoppedTimerStaysPut | jellyfit/components/Timer.tsx:19 | A stopped timer never changes |
| Timer.RestartedCountdownCompletesAgain | jellyfit/components/Timer.tsx:22-28 | Restarting a finished countdown completes again on the next firing and stays at 0 |
| Timer.ClockFields | jellyfit/components/Timer.tsx:49-51 | Hours, minutes below 60 and seconds below 60 that add back up to the total |
| Timer.ShortFace | jellyfit/components/Timer.tsx:55 | `mm:ss`: five characters, the colon in the middle and digits in the two two-character fields; the fields read back as the minutes and seconds, and the face as their total |
| Timer.LongFace | jellyfit/components/Timer.tsx:53 | `h:mm:ss` (`ShowsLong`): colons before the two-digit minute and second fields and digits elsewhere; the hours, minutes and seconds fields each read back as `h`, `m` and `sec`; the hours field has no leading zero unless `h` is 0; the whole face reads back as the total |
| Timer.FormatClock | jellyfit/components/Timer.tsx:48-56 | The five-character face exactly below an hour and a longer face from an hour on. Digits fill every position except the colons, which sit before the two-character seconds field and, in the longer face, before the two-character minutes field. The minutes and seconds fields read below 60, the hours field of a longer face has no leading zero, and reading the face back gives the total |
| Timer.FormatClockInjective | jellyfit/components/Timer.tsx:48-56 | Different totals show different clocks |
| Gemini.TrainingInsights | jellyfit/services/geminiService.ts:14-48 | The result is never empty. Without a key it is the key hint, and with no sessions the first-session hint. Otherwise it is the model's text; an empty answer and a failed call each get their own fixed message |
| Gemini.InsightIsModelText | jellyfit/services/geminiService.ts:14-48 | Any text other than the four fixed messages is the model's own answer to a real request |
| Gemini.FallbackRoutines | jellyfit/services/geminiService.ts:53-61 | One Performance routine "fallback-1" named after the sport, with the four fixed exercises |
| Gemini.Slug | jellyfit/services/geminiService.ts:105 | Same length; whitespace becomes '-', letters are lowered; no whitespace or upper-case is left |
| Gemini.RoutineId | jellyfit/services/geminiService.ts:105 | The slug, a dash, then the decimal index |
| Gemini.RoutineIdsDistinct | jellyfit/services/geminiService.ts:104-110 | Two positions get the same id exactly when they are the same position |
| Gemini.ToTemplate | jellyfit/services/geminiService.ts:104-110 | The template carries the item's fields and the positional id |
| Gemini.SportRoutines | jellyfit/services/geminiService.ts:50-116 | The fallback is used without a key, for a malformed answer or for a failed call. An empty answer gives no routines. Otherwise there is one template per item, in order, with pairwise-distinct ids |
| Dashboard.TotalMinutes | jellyfit/views/DashboardView.tsx:31 | Sums the durations: 0 for none, and no single session exceeds the total |
| Dashboard.TotalMinutesAppend | jellyfit/views/DashboardView.tsx:31 | The total of two lists together is the sum of their totals |
| Dashboard.HoursAndMinutes | jellyfit/views/DashboardView.tsx:163 | Whole hours and leftover minutes below 60 that add back up to the total |
| Dashboard.SessionsThisWeek | jellyfit/views/DashboardView.tsx:32-37 | At most the number of sessions, and positive exactly when some session started within the last seven days |
| Dashboard.InWeekBoundary | jellyfit/views/DashboardView.tsx:32-37 | A session exactly seven days old counts and one a millisecond older does not; future-dated sessions count; a session that counts now also counted at any earlier instant |
| Dashboard.SessionsThisWeekAfterSave | jellyfit/views/DashboardView.tsx:32-37 | A saved session adds one to the weekly count exactly when it is within the week |
| Dashboard.SessionsThisWeekAntitone | jellyfit/views/DashboardView.tsx:32-37 | As time passes the weekly count never grows |
| Dashboard.InsightSessions | jellyfit/views/DashboardView.tsx:42 | The first min(5, n) sessions |
| Dashboard.FetchInsights | jellyfit/views/DashboardView.tsx:39-47 | The insight text is never empty: the no-key hint, the no-sessions hint, the model's text, "Could not generate insights at this time." for an empty reply, or "AI Service temporarily unavailable." for a failed call |
| Dashboard.FetchHidesAnalyze | jellyfit/views/DashboardView.tsx:192 | After fetching, the Analyze button is gone |
| Dashboard.FirstToken | jellyfit/views/DashboardView.tsx:61 | `split(' ')[0]`: a space-free prefix of the name, ending at the first space or at the end of the name |
| Dashboard.GreetingName | jellyfit/views/DashboardView.tsx:61 | The first word of the name, or "Athlete" when there is no profile or that word is empty |
| Dashboard.Subtitle | jellyfit/views/DashboardView.tsx:64 | "<sport> Training" when a sport is set, otherwise "Ready to train?" |
| Dashboard.DayCardStatus | jellyfit/views/DashboardView.tsx:116-129 | Done exactly when completed; a Start button exactly for an uncompleted training day; active recovery exactly for an uncompleted rest day |
| Dashboard.DayTitle | jellyfit/views/DashboardView.tsx:113 | "Rest & Recover" on rest days, otherwise the day's focus |
| Dashboard.ShowPlanWidget | jellyfit/views/DashboardView.tsx:86-141 | Hidden exactly without AI coaching; the invitation exactly when coaching is on and there is no plan; otherwise one card per day, in order |
| Dashboard.MarkedDayShowsDone | jellyfit/views/DashboardView.tsx:116-129 | After marking a day, its card and every previously completed card say Done |
| Tracker.Stats | jellyfit/views/TrackerView.tsx:16-18 | The session count, the total minutes, and the newest session's date, which is absent exactly when there are no sessions |
| Tracker.StatsAfterSave | jellyfit/views/TrackerView.tsx:16-18 | A save adds one session and its minutes, and makes its date the one shown |
| NewSession.FilterSports | jellyfit/views/NewSessionView.tsx:86 | The popular sports that contain the search term ignoring case, as a subsequence of the nine in their order, each exactly once as in the list, and no other |
| NewSession.FilterByTerm | jellyfit/views/NewSessionView.tsx:86 | For any list of sports, the search keeps exactly the sports containing the term ignoring case, as a subsequence in the list's order, each as often as the list has it |
| NewSession.EmptySearchListsAll | jellyfit/views/NewSessionView.tsx:86 | An empty search lists all nine sports in order |
| NewSession.InitPicker | jellyfit/views/NewSessionView.tsx:18-21 | Opens on the sport picker exactly when the sport is `null` or the empty string |
| NewSession.EmptySportOpensPicker | jellyfit/views/NewSessionView.tsx:21-27 | An empty sport behaves like none: the picker opens and no routines are loaded |
| NewSession.TypeSearch | jellyfit/views/NewSessionView.tsx:18 | Only the search term changes |
| NewSession.SelectSport | jellyfit/views/NewSessionView.tsx:41-44 | Reports the sport and closes the picker |
| NewSession.SearchSubmit | jellyfit/views/NewSessionView.tsx:46-51 | A blank search does nothing; otherwise the non-empty trimmed term is chosen |
| NewSession.ShowCustomOption | jellyfit/views/NewSessionView.tsx:96 | The custom button is never offered for a term that is itself one of the popular sports |
| NewSession.NoCaselessMatchIffNoneListed | jellyfit/views/NewSessionView.tsx:86-96 | A list has no caseless match for the term exactly when none of its entries that pass the search filter is one |
| NewSession.CustomOptionIffNoListedMatch | jellyfit/views/NewSessionView.tsx:86-96 | The custom button is offered exactly when the term is non-empty and no listed sport equals it ignoring case |
| NewSession.SelectTypedSport | jellyfit/views/NewSessionView.tsx:96-98 | The custom button chooses the term exactly as typed |
| NewSession.SubmitAgreesWithButtonIffTrimmed | jellyfit/views/NewSessionView.tsx:46-98 | For every term the button is offered for, submitting and pressing the button choose the same sport exactly when the term has no whitespace at either end |
| NewSession.SubmitAndButtonDiffer | jellyfit/views/NewSessionView.tsx:46-98 | For " Golf ", submitting chooses "Golf" while the button chooses " Golf " |
| NewSession.ChangeSport | jellyfit/views/NewSessionView.tsx:116 | Back to the picker; nothing else changes |
| NewSession.LoadRoutines | jellyfit/views/NewSessionView.tsx:23-39 | With a non-empty sport and the picker closed, the routines for that sport are listed; with no sport, an empty one, or the picker open, nothing changes |
| NewSession.NoKeyListsFallback | jellyfit/views/NewSessionView.tsx:23-39 | Without a key, any chosen non-empty sport lists one routine named after it; an empty one loads nothing |
| NewSession.CustomSessionStartsEmpty | jellyfit/views/NewSessionView.tsx:157-164 | The "Create Empty Session" template starts an editor with no exercises and, finished, records a custom, non-circuit session |
| ProfileWizard.Init | jellyfit/components/ProfileWizard.tsx:13-23 | Opens on step 1 with the existing profile, or with the defaults |
| ProfileWizard.HandleChange | jellyfit/components/ProfileWizard.tsx:25-27 | The edited field takes the new value and every other field is kept |
| ProfileWizard.ChangesCommute | jellyfit/components/ProfileWizard.tsx:25-27 | Edits of different fields commute |
| ProfileWizard.LastChangeWins | jellyfit/components/ProfileWizard.tsx:25-27 | A later edit of a field overrides an earlier one |
| ProfileWizard.Apply | jellyfit/components/ProfileWizard.tsx:29-146 | An edit changes the profile exactly as `handleChange` does when its input is on the current step, and otherwise not at all. A frequency button sets the frequency only on step 3 with a value from 1 to 7. Every other event keeps the profile. An enabled Next moves one step forward and a shown Back one step back, and nothing else moves the step. Create Profile submits the form's profile exactly on step 3. AI coaching is never changed |
| ProfileWizard.InitValid | jellyfit/components/ProfileWizard.tsx:13-23 | The opening form is valid |
| ProfileWizard.DefaultFormBlocksNext | jellyfit/components/ProfileWizard.tsx:13-23 | A new user's form opens on the defaults, whose empty name and sport keep Next disabled (line 85), so Next does nothing; the default frequency is in 1..7 and AI coaching is on |
| ProfileWizard.BackUndoesNext | jellyfit/components/ProfileWizard.tsx:85-145 | On any valid form, an enabled Next followed by Back restores the form; step 1 shows no Back and ignores it; step 3 has Back but no Next |
| ProfileWizard.ApplyKeepsValid | jellyfit/components/ProfileWizard.tsx:29-146 | Every event keeps the step in 1..3, with a name and a sport past step 1 |
| ProfileWizard.RunKeepsValid | jellyfit/components/ProfileWizard.tsx:29-146 | Over any run, validity and AI coaching are kept, and a submitted profile has a name and a sport |
| ProfileWizard.RunKeepsFrequency | jellyfit/components/ProfileWizard.tsx:122-125 | A frequency in 1..7 stays in 1..7 |
| ProfileWizard.NewUserFastPath | jellyfit/components/ProfileWizard.tsx:13-146 | Name, sport, Next, Next, Create submits the defaults with that name and sport |
| Chat.Welcome | jellyfit/views/ChatView.tsx:19-21 | The greeting comes from the coach, with id "welcome" |
| Chat.InitChat | jellyfit/views/ChatView.tsx:19-23 | Only the greeting, an empty input, not loading |
| Chat.TypeInput | jellyfit/views/ChatView.tsx:22 | Only the input changes |
| Chat.History | jellyfit/views/ChatView.tsx:41-44 | One entry per message: same role, same text, same order |
| Chat.HistoryKeepsTexts | jellyfit/views/ChatView.tsx:41-44 | Every text survives into the history |
| Chat.Send | jellyfit/views/ChatView.tsx:32-46 | Blank input or loading does nothing. Otherwise the untrimmed user message is appended, the input is cleared, and the screen waits. The request carries the history before the message |
| Chat.Receive | jellyfit/views/ChatView.tsx:46-49 | The reply is appended from the coach and waiting ends |
| Chat.InitValid | jellyfit/views/ChatView.tsx:19-23 | The opening chat alternates correctly and is not waiting |
| Chat.SendKeepsValid | jellyfit/views/ChatView.tsx:32-46 | Sending keeps the conversation alternating, waiting exactly after the user |
| Chat.ReceiveKeepsValid | jellyfit/views/ChatView.tsx:46-49 | Receiving keeps the conversation alternating, waiting exactly after the user |
| Chat.ExchangeFromStart | jellyfit/views/ChatView.tsx:19-49 | The first exchange sends the greeting as history and ends with greeting, question and answer |
| Constants.PadelTemplatesShape | jellyfit/constants.ts:14-43 | Four padel routines with distinct ids: one Strength, one Mobility, one Performance and one Circuit, with four exercises each |
| Constants.MockHistoryShape | jellyfit/constants.ts:4-12 | Seven chart points, Monday to Sunday, with distinct names |
| Constants.CircuitTemplateRoundTrip | jellyfit/constants.ts:36-42 | Starting and at once finishing the circuit routine records a zero-minute circuit session with its four exercises |
| App.Mount | jellyfit/App.tsx:31-57 | Nobody signed in: the auth screen. Otherwise the stored sessions, plan and profile are loaded, and the view is the dashboard exactly when a profile is stored |
| App.HandleAuthSuccess | jellyfit/App.tsx:59-69 | Records the user and routes by the stored profile. Sessions and plan are not loaded, and with no stored profile the in-memory one is left as it was |
| App.HandleLogout | jellyfit/App.tsx:71-78 | Signs out and clears user, profile, sessions and plan; the active template and selected session stay |
| App.ReloginShowsNoHistory | jellyfit/App.tsx:59-78 | Signing out and back in shows the dashboard with no sessions and no plan in memory |
| App.RemountLoadsHistory | jellyfit/App.tsx:31-57 | A remount with a signed-in user shows the stored history |
| App.HandleCreateProfile | jellyfit/App.tsx:80-84 | Adopts and saves the profile, shows the dashboard, and leaves sessions and plan in store |
| App.Navigate | jellyfit/App.tsx:86-92 | A navigation handler changes the view and nothing else |
| App.HandleSelectTemplate | jellyfit/App.tsx:94-97 | Sets the active template and opens the editor; nothing else changes |
| App.PlanDayTemplate | jellyfit/App.tsx:99-108 | The id is "plan-" then the timestamp. The name, type and exercise names come from the day, in order, and the description names the day |
| App.HandleStartPlanSession | jellyfit/App.tsx:99-111 | Same as selecting the template built from the day |
| App.PlanDayRunsAsPlanned | jellyfit/App.tsx:99-111 | The editor opens on the day's exercises in order, and the finished session records the day's type |
| App.HandleGenerateWeeklyPlan | jellyfit/App.tsx:113-121 | With a profile and a generated plan, the plan is adopted and saved; otherwise nothing changes |
| App.HandleFinishSession | jellyfit/App.tsx:123-137 | Shows what the save returned. With a plan in memory, today is marked in the store and the plan is reloaded; without one the stored plan is not touched. Ends on the dashboard with no template |
| App.FinishMarksToday | jellyfit/App.tsx:123-137 | After a successful finish the stored history starts with the session, the shown list is the stored one, and the plan has today marked |
| App.FinishWithoutPlanKeepsStoredPlan | jellyfit/App.tsx:129 | With no plan in memory the stored plan is unchanged |
| App.FinishDropsPlanMissingFromStore | jellyfit/App.tsx:129-132 | A plan in memory but missing from the store becomes null on finishing |
| App.MondayScenario | jellyfit/App.tsx:123-137 | A first session finished on a Monday is the whole history; Monday's card says Done, and the other days are unchanged |
| App.HandleCancelSession | jellyfit/App.tsx:139-142 | Back to the dashboard with no active template; nothing else changes |
| App.HandleSelectSession | jellyfit/App.tsx:144-147 | Opens the details of the chosen session; nothing else changes |
| App.UserSport | jellyfit/App.tsx:197 | The profile's sport, or null when there is no profile or the sport is empty |
| App.OnUpdateSport | jellyfit/App.tsx:198-204 | Without a profile nothing changes. With one, only the sport changes, and the new profile is what is stored |
| App.UpdatedSportIsUserSport | jellyfit/App.tsx:197-204 | A chosen non-empty sport becomes the sport given to the new-session screen, when there is a profile |
| App.TabBarVisible | jellyfit/App.tsx:218 | The tab bar shows exactly when the view's name is one of 'dashboard', 'tracker', 'history', 'profile' |
| App.TabsKeepTabBar | jellyfit/App.tsx:226-270 | The Home, Tracker, History and Profile tabs keep the tab bar on screen and change only the view |
| App.TabBarHiddenOnTaskViews | jellyfit/App.tsx:218 | The tab bar shows exactly on the dashboard, tracker, history and profile views |

## Left out

- JSON text: the store holds parsed values. Text that does not parse, and a value of the wrong shape for its key, are both one `Unparseable` entry. At run time `JSON.parse` would hand a wrong-shaped value through unchecked.
- The account store's two keys (`jellyfit_users_db`, `jellyfit_current_user`) are one `Auth.AuthStore` value. Their JSON encoding and the simulated network delay are left out.
- Passwords are compared as plain strings, as the source stores them. The HTML email-format check on the sign-in form is not modelled; only the `required` check is.
- Real time: `setInterval`, `Date.now()`, `new Date()`, the weekday name in the user's locale and `toISOString` are parameters or plain integers. Rendering dates with `toLocaleDateString` is not modelled.
- Ids from `Math.random` or the clock are parameters.
- The React lifecycle, refs, scrolling and styling. Each handler and effect is one atomic step, so the intermediate "loading" renders are not modelled.
- The Gemini SDK, the prompts, the response schema and reading the API key from the environment. Whether a key exists, and what the model answered, are parameters.
- The model's JSON `type` field is assumed to be one of the schema's four enum values.
- `generateWeeklyPlan` and `chatWithCoach` are imported by the app but not defined in `geminiService.ts`. They are not part of this model. A generated plan is therefore adopted exactly as returned, and any post-processing of its days, such as resetting `completed`, is not modelled. `Chat.Receive` models only a coach call that returns; a call that throws would leave the screen waiting.
- Floating point: the tracker's `toFixed(1)` hours are not modelled, because they are a float rendering. `Number(...)` and `parseInt` on form input, NaN included, are out too: set fields and the age hold whole numbers.
- Whitespace and case: only ASCII whitespace counts as whitespace, and only ASCII letters are lower-cased. JavaScript's Unicode `trim` and `toLowerCase` are not modelled.
- `window.confirm` is a boolean parameter. `URL.createObjectURL` gives an opaque string parameter.
- Storage.SaveUserProfile: always succeeds. `saveUserProfile` (storageService.ts:44-46) does not catch a throwing `localStorage.setItem`, so the exception would escape into `handleCreateProfile` and `onUpdateSport`. That abort part-way through a handler is not modelled; only `Storage.SaveSession` takes a failing write, because its source catches it.
- Storage.SaveWeeklyPlan: always succeeds, for the same reason (storageService.ts:58-60). This also covers `Storage.MarkPlanDayComplete`, which writes through it. A throwing write inside `handleGenerateWeeklyPlan` or `handleFinishSession` is not modelled.
- Timer.Create: the initial seconds are a `nat`. A negative `initialSeconds` prop is not modelled.
- Display-only components (`Button`, `SessionList`, `SessionDetailsView`, `ProfileView`, `ToolsView`) and the static text and icons of every screen.
- The dashboard's plan-generation button only sets a flag around the app's handler, and that flag is not modelled; `App.HandleGenerateWeeklyPlan` models the handler.
- A template's detailed prescription (target reps and sets) is carried on the template only; the editor seeds plain default sets, as the session screen does.

=== FILE: active_session.dfy ===
/** The active-session editor: the exercise list seeded from a template,
    every edit the session screen offers, the one-second elapsed counter,
    and the finaliser that turns the editor into a `Session`. Each edit is
    an immutable map or filter over the exercises and their sets. Fresh
    ids (random in the app) are parameters. */
module ActiveSession {
  import opened Types
  import opened Text
  import opened Seqs

  /** The editor state: the exercises being logged, the elapsed seconds,
      and the add-exercise input panel. */
  datatype Editor = Editor(
    exercises: seq<ExerciseData>,
    elapsedSeconds: nat,
    isAddingExercise: bool,
    newExerciseName: string)

  /** A set as `createSet` makes it: 10 reps, no weight, no time, not completed. */
  function CreateSet(id: string): (s: SetData)
    ensures s.id == id && !s.completed
    ensures ReadField(s, RepsField) == Some(10) && ReadField(s, WeightField) == None && ReadField(s, TimeField) == None
  {
    SetData(id, 10, None, None, false)
  }

  /** A new exercise: not timed, one default set, no media. */
  function NewExercise(id: string, name: string, setId: string): ExerciseData {
    ExerciseData(id, name, [CreateSet(setId)], false, None, None, None, None, None)
  }

  /** What every exercise looks like right after it is created. */
  predicate IsFreshExercise(e: ExerciseData) {
    && !e.isTimed
    && |e.sets| == 1
    && e.sets[0].reps == 10 && e.sets[0].weight == None && e.sets[0].time == None && !e.sets[0].completed
    && e.mediaUrl == None && e.mediaType == None
  }

  function Names(exs: seq<ExerciseData>): (r: seq<string>)
    ensures |r| == |exs|
  {
    seq(|exs|, i requires 0 <= i < |exs| => exs[i].name)
  }

  /** The editor right after it opens on template `t`: one fresh exercise
      per default exercise name, in order, with the supplied ids. The
      template's detailed prescription is not used. */
  function Start(t: Template, exerciseIds: seq<string>, setIds: seq<string>): (ed: Editor)
    requires |exerciseIds| == |t.defaultExercises| && |setIds| == |t.defaultExercises|
    ensures Names(ed.exercises) == t.defaultExercises
    ensures forall i :: 0 <= i < |ed.exercises| ==>
      IsFreshExercise(ed.exercises[i]) && ed.exercises[i].id == exerciseIds[i] && ed.exercises[i].sets[0].id == setIds[i]
    ensures ed.elapsedSeconds == 0 && !ed.isAddingExercise && ed.newExerciseName == []
  {
    var n := |t.defaultExercises|;
    Editor(seq(n, i requires 0 <= i < n => NewExercise(exerciseIds[i], t.defaultExercises[i], setIds[i])), 0, false, [])
  }

  /** The session timer's tick: one more second, nothing else changes. */
  function Tick(ed: Editor): (r: Editor)
    ensures r.elapsedSeconds == ed.elapsedSeconds + 1
    ensures r.exercises == ed.exercises && r.isAddingExercise == ed.isAddingExercise && r.newExerciseName == ed.newExerciseName
  {
    ed.(elapsedSeconds := ed.elapsedSeconds + 1)
  }

  /** "Add Exercise" opens the name input; the close button hides it. */
  function SetAddingExercise(ed: Editor, open: bool): (r: Editor)
    ensures r.isAddingExercise == open
    ensures r.exercises == ed.exercises && r.newExerciseName == ed.newExerciseName && r.elapsedSeconds == ed.elapsedSeconds
  {
    ed.(isAddingExercise := open)
  }

  /** Typing into the new-exercise input. */
  function TypeExerciseName(ed: Editor, text: string): (r: Editor)
    ensures r.newExerciseName == text
    ensures r.exercises == ed.exercises && r.isAddingExercise == ed.isAddingExercise && r.elapsedSeconds == ed.elapsedSeconds
  {
    ed.(newExerciseName := text)
  }

  /** `handleAddExercise`: a blank name changes nothing; otherwise one fresh
      exercise named with the trimmed input is appended, and the input is
      cleared and closed. */
  function AddExercise(ed: Editor, exerciseId: string, setId: string): (r: Editor)
    ensures AllSpace(ed.newExerciseName) ==> r == ed
    ensures !AllSpace(ed.newExerciseName) ==>
      && |r.exercises| == |ed.exercises| + 1
      && r.exercises[..|ed.exercises|] == ed.exercises
      && IsFreshExercise(Last(r.exercises))
      && Last(r.exercises).id == exerciseId
      && Last(r.exercises).name == Trim(ed.newExerciseName)
      && r.newExerciseName == [] && !r.isAddingExercise
    ensures r.elapsedSeconds == ed.elapsedSeconds
  {
    var name := Trim(ed.newExerciseName);
    if name != [] then
      Editor(ed.exercises + [NewExercise(exerciseId, name, setId)], ed.elapsedSeconds, false, [])
    else ed
  }

  /** The name given to an added exercise never starts or ends with whitespace. */
  lemma AddedNameIsTrimmed(ed: Editor, exerciseId: string, setId: string)
    requires !AllSpace(ed.newExerciseName)
    ensures var e := Last(AddExercise(ed, exerciseId, setId).exercises);
      e.name != [] && !IsSpace(e.name[0]) && !IsSpace(e.name[|e.name| - 1])
  {
  }

  /** Applies `f` to every exercise whose id is `exerciseId` (the
      `exercises.map(ex => ex.id === exerciseId ? ... : ex)` idiom). */
  function MapExercise(exs: seq<ExerciseData>, exerciseId: string, f: ExerciseData -> ExerciseData): (r: seq<ExerciseData>)
    ensures |r| == |exs|
    ensures forall i :: 0 <= i < |r| ==> r[i] == (if exs[i].id == exerciseId then f(exs[i]) else exs[i])
  {
    seq(|exs|, i requires 0 <= i < |exs| => if exs[i].id == exerciseId then f(exs[i]) else exs[i])
  }

  /** Applies `g` to every set whose id is `setId`. */
  function MapSet(sets: seq<SetData>, setId: string, g: SetData -> SetData): (r: seq<SetData>)
    ensures |r| == |sets|
    ensures forall j :: 0 <= j < |r| ==> r[j] == (if sets[j].id == setId then g(sets[j]) else sets[j])
  {
    seq(|sets|, j requires 0 <= j < |sets| => if sets[j].id == setId then g(sets[j]) else sets[j])
  }

  /** The set `addSet` appends after `prev`: the previous last set's reps,
      weight and time, not completed; the default set when there is none. */
  function NextSet(prev: seq<SetData>, setId: string): SetData {
    if |prev| == 0 then CreateSet(setId)
    else Last(prev).(id := setId, completed := false)
  }

  /** `addSet`: the target exercise gets exactly one more set at the end,
      carrying forward the last set's values; nothing else changes. */
  function AddSet(exs: seq<ExerciseData>, exerciseId: string, setId: string): (r: seq<ExerciseData>)
    ensures |r| == |exs|
    ensures forall i :: 0 <= i < |r| && exs[i].id != exerciseId ==> r[i] == exs[i]
    ensures forall i :: 0 <= i < |r| && exs[i].id == exerciseId ==>
      && r[i] == exs[i].(sets := r[i].sets)
      && |r[i].sets| == |exs[i].sets| + 1
      && r[i].sets[..|exs[i].sets|] == exs[i].sets
      && Last(r[i].sets).id == setId && !Last(r[i].sets).completed
      && (|exs[i].sets| == 0 ==> Last(r[i].sets) == CreateSet(setId))
      && (|exs[i].sets| > 0 ==>
            && Last(r[i].sets).reps == Last(exs[i].sets).reps
            && Last(r[i].sets).weight == Last(exs[i].sets).weight
            && Last(r[i].sets).time == Last(exs[i].sets).time)
  {
    MapExercise(exs, exerciseId, (e: ExerciseData) => e.(sets := e.sets + [NextSet(e.sets, setId)]))
  }

  /** Example: after a set of 8 reps at 40 kg, the added set is 8 reps at
      40 kg and not completed. */
  lemma AddSetCarriesWeightAndReps()
    ensures var e := ExerciseData("e", "Squat", [SetData("s1", 8, Some(40), None, true)], false, None, None, None, None, None);
      AddSet([e], "e", "s2")[0].sets == [SetData("s1", 8, Some(40), None, true), SetData("s2", 8, Some(40), None, false)]
  {
  }

  datatype SetField = RepsField | WeightField | TimeField

  /** One numeric field of a set set to `value`. */
  function WithField(s: SetData, field: SetField, value: int): SetData {
    match field
    case RepsField => s.(reps := value)
    case WeightField => s.(weight := Some(value))
    case TimeField => s.(time := Some(value))
  }

  /** Reads one numeric field of a set. */
  function ReadField(s: SetData, field: SetField): Option<int> {
    match field
    case RepsField => Some(s.reps)
    case WeightField => s.weight
    case TimeField => s.time
  }

  /** `updateSet`: every set with id `setId` in every exercise with id
      `exerciseId` gets `field` set to `value`; the set reads back the
      value, its other fields and every other set stay as they were. No
      range check is made on the value. */
  function UpdateSet(exs: seq<ExerciseData>, exerciseId: string, setId: string, field: SetField, value: int): (r: seq<ExerciseData>)
    ensures |r| == |exs|
    ensures forall i :: 0 <= i < |r| ==> r[i] == exs[i].(sets := r[i].sets) && |r[i].sets| == |exs[i].sets|
    ensures forall i, j :: 0 <= i < |r| && 0 <= j < |r[i].sets| ==>
      if exs[i].id == exerciseId && exs[i].sets[j].id == setId then
        && ReadField(r[i].sets[j], field) == Some(value)
        && (forall g :: g != field ==> ReadField(r[i].sets[j], g) == ReadField(exs[i].sets[j], g))
        && r[i].sets[j].id == setId && r[i].sets[j].completed == exs[i].sets[j].completed
      else r[i].sets[j] == exs[i].sets[j]
  {
    MapExercise(exs, exerciseId, (e: ExerciseData) => e.(sets := MapSet(e.sets, setId, (s: SetData) => WithField(s, field, value))))
  }

  /** No exercise with id `exerciseId` holds a set with id `setId`. */
  predicate NoSuchSet(exs: seq<ExerciseData>, exerciseId: string, setId: string) {
    forall i, j :: 0 <= i < |exs| && exs[i].id == exerciseId && 0 <= j < |exs[i].sets| ==> exs[i].sets[j].id != setId
  }

  /** Updating a set that does not exist changes nothing. */
  lemma UpdateUnknownSetIsNoOp(exs: seq<ExerciseData>, exerciseId: string, setId: string, field: SetField, value: int)
    requires NoSuchSet(exs, exerciseId, setId)
    ensures UpdateSet(exs, exerciseId, setId, field, value) == exs
  {
    var r := UpdateSet(exs, exerciseId, setId, field, value);
    forall i | 0 <= i < |exs| ensures r[i] == exs[i] {
      assert r[i].sets == exs[i].sets;
    }
  }

  /** `toggleSetComplete`: flips `completed` of the matching sets of the
      matching exercises and nothing else. */
  function ToggleSetComplete(exs: seq<ExerciseData>, exerciseId: string, setId: string): (r: seq<ExerciseData>)
    ensures |r| == |exs|
    ensures forall i :: 0 <= i < |r| ==> r[i] == exs[i].(sets := r[i].sets) && |r[i].sets| == |exs[i].sets|
    ensures forall i, j :: 0 <= i < |r| && 0 <= j < |r[i].sets| ==>
      r[i].sets[j] == exs[i].sets[j].(completed := r[i].sets[j].completed)
      && (r[i].sets[j].completed != exs[i].sets[j].completed <==> exs[i].id == exerciseId && exs[i].sets[j].id == setId)
  {
    MapExercise(exs, exerciseId, (e: ExerciseData) => e.(sets := MapSet(e.sets, setId, (s: SetData) => s.(completed := !s.completed))))
  }

  /** Toggling the same set twice restores the exercise list. */
  lemma ToggleSetCompleteTwice(exs: seq<ExerciseData>, exerciseId: string, setId: string)
    ensures ToggleSetComplete(ToggleSetComplete(exs, exerciseId, setId), exerciseId, setId) == exs
  {
    var once := ToggleSetComplete(exs, exerciseId, setId);
    var twice := ToggleSetComplete(once, exerciseId, setId);
    forall i | 0 <= i < |exs| ensures twice[i] == exs[i] {
      assert twice[i].sets == exs[i].sets;
    }
  }

  /** Toggling a set that does not exist changes nothing. */
  lemma ToggleUnknownSetIsNoOp(exs: seq<ExerciseData>, exerciseId: string, setId: string)
    requires NoSuchSet(exs, exerciseId, setId)
    ensures ToggleSetComplete(exs, exerciseId, setId) == exs
  {
    var r := ToggleSetComplete(exs, exerciseId, setId);
    forall i | 0 <= i < |exs| ensures r[i] == exs[i] {
      assert r[i].sets == exs[i].sets;
    }
  }

  function SetIdIsNot(setId: string): SetData -> bool {
    (s: SetData) => s.id != setId
  }

  /** `removeSet`: the matching exercises keep exactly their sets whose id
      is not `setId`, in order; there is no minimum number of sets. */
  function RemoveSet(exs: seq<ExerciseData>, exerciseId: string, setId: string): (r: seq<ExerciseData>)
    ensures |r| == |exs|
    ensures forall i :: 0 <= i < |r| ==> r[i] == exs[i].(sets := r[i].sets)
    ensures forall i :: 0 <= i < |r| && exs[i].id != exerciseId ==> r[i] == exs[i]
    ensures forall i :: 0 <= i < |r| && exs[i].id == exerciseId ==>
      && (forall s :: s in r[i].sets <==> s in exs[i].sets && s.id != setId)
      && IsSubseq(r[i].sets, exs[i].sets)
      && (forall s {:trigger multiset(r[i].sets)[s]} :: multiset(r[i].sets)[s] == if s.id != setId then multiset(exs[i].sets)[s] else 0)
  {
    MapExercise(exs, exerciseId, (e: ExerciseData) => e.(sets := Filter(e.sets, SetIdIsNot(setId))))
  }

  /** Removing the set that `addSet` just appended under a fresh id gives
      back the exercise list from before the add. */
  lemma RemoveSetUndoesAddSet(exs: seq<ExerciseData>, exerciseId: string, setId: string)
    requires NoSuchSet(exs, exerciseId, setId)
    ensures RemoveSet(AddSet(exs, exerciseId, setId), exerciseId, setId) == exs
  {
    var added := AddSet(exs, exerciseId, setId);
    var r := RemoveSet(added, exerciseId, setId);
    forall i | 0 <= i < |exs| ensures r[i] == exs[i] {
      if exs[i].id == exerciseId {
        var old_sets := exs[i].sets;
        assert added[i].sets == old_sets + [NextSet(old_sets, setId)];
        FilterDropsAppended(old_sets, NextSet(old_sets, setId), SetIdIsNot(setId));
      }
    }
  }

  predicate DistinctSetIds(sets: seq<SetData>) {
    forall j, k :: 0 <= j < k < |sets| ==> sets[j].id != sets[k].id
  }

  /** The trash button under an exercise is shown only when it has sets. */
  predicate TrashShown(e: ExerciseData) {
    |e.sets| > 0
  }

  /** The trash button removes the set with the last set's id. */
  function PressTrash(exs: seq<ExerciseData>, i: nat): (r: seq<ExerciseData>)
    requires i < |exs| && TrashShown(exs[i])
    ensures |r| == |exs|
    ensures forall k :: 0 <= k < |r| && exs[k].id != exs[i].id ==> r[k] == exs[k]
  {
    RemoveSet(exs, exs[i].id, Last(exs[i].sets).id)
  }

  /** When the set ids of an exercise are distinct, its trash button drops
      exactly its last set. */
  lemma TrashDropsLastSet(exs: seq<ExerciseData>, i: nat)
    requires i < |exs| && TrashShown(exs[i]) && DistinctSetIds(exs[i].sets)
    ensures PressTrash(exs, i)[i] == exs[i].(sets := exs[i].sets[..|exs[i].sets| - 1])
  {
    var sets := exs[i].sets;
    var n := |sets|;
    var keep := SetIdIsNot(sets[n - 1].id);
    assert sets == sets[..n - 1] + [sets[n - 1]];
    FilterDropsAppended(sets[..n - 1], sets[n - 1], keep);
  }

  function ExerciseIdIsNot(exerciseId: string): ExerciseData -> bool {
    (e: ExerciseData) => e.id != exerciseId
  }

  /** `removeExercise`: without confirmation nothing changes; with it,
      exactly the exercises with another id remain, in order. */
  function RemoveExercise(exs: seq<ExerciseData>, exerciseId: string, confirmed: bool): (r: seq<ExerciseData>)
    ensures !confirmed ==> r == exs
    ensures confirmed ==> forall e :: e in r <==> e in exs && e.id != exerciseId
    ensures confirmed ==> IsSubseq(r, exs)
    ensures confirmed ==> forall e {:trigger multiset(r)[e]} :: multiset(r)[e] == if e.id != exerciseId then multiset(exs)[e] else 0
    ensures |r| <= |exs|
  {
    if confirmed then Filter(exs, ExerciseIdIsNot(exerciseId)) else exs
  }

  /** Removing an exercise id that is not present changes nothing. */
  lemma RemoveUnknownExerciseIsNoOp(exs: seq<ExerciseData>, exerciseId: string, confirmed: bool)
    requires forall i :: 0 <= i < |exs| ==> exs[i].id != exerciseId
    ensures RemoveExercise(exs, exerciseId, confirmed) == exs
  {
    FilterKeepsAll(exs, ExerciseIdIsNot(exerciseId));
  }

  /** `toggleTimedExercise`: flips `isTimed` of the matching exercises and
      leaves their sets, including stale values, untouched. */
  function ToggleTimed(exs: seq<ExerciseData>, exerciseId: string): (r: seq<ExerciseData>)
    ensures |r| == |exs|
    ensures forall i :: 0 <= i < |r| ==>
      && r[i] == exs[i].(isTimed := r[i].isTimed)
      && (r[i].isTimed != exs[i].isTimed <==> exs[i].id == exerciseId)
  {
    MapExercise(exs, exerciseId, (e: ExerciseData) => e.(isTimed := !e.isTimed))
  }

  /** Toggling timed mode twice restores the exercise list. */
  lemma ToggleTimedTwice(exs: seq<ExerciseData>, exerciseId: string)
    ensures ToggleTimed(ToggleTimed(exs, exerciseId), exerciseId) == exs
  {
  }

  /** A picked file: its object URL (opaque) and its MIME type. */
  datatype MediaFile = MediaFile(url: string, mimeType: string)

  /** Video exactly when the MIME type starts with "video"; image otherwise. */
  function MediaKindOf(mimeType: string): (k: MediaKind)
    ensures k == Video <==> IsPrefix("video", mimeType)
  {
    if IsPrefix("video", mimeType) then Video else Image
  }

  /** `handleMediaUpload`: with no file nothing changes; otherwise the
      matching exercises get the file's URL and kind. */
  function AttachMedia(exs: seq<ExerciseData>, exerciseId: string, file: Option<MediaFile>): (r: seq<ExerciseData>)
    ensures file == None ==> r == exs
    ensures |r| == |exs|
    ensures forall i :: 0 <= i < |r| && (file == None || exs[i].id != exerciseId) ==> r[i] == exs[i]
    ensures file.Some? ==> forall i :: 0 <= i < |r| && exs[i].id == exerciseId ==>
      r[i] == exs[i].(mediaUrl := Some(file.value.url), mediaType := Some(MediaKindOf(file.value.mimeType)))
  {
    match file
    case None => exs
    case Some(f) => MapExercise(exs, exerciseId, (e: ExerciseData) => e.(mediaUrl := Some(f.url), mediaType := Some(MediaKindOf(f.mimeType))))
  }

  /** The preview's close button: the URL goes, the media kind stays. */
  function ClearMedia(exs: seq<ExerciseData>, exerciseId: string): (r: seq<ExerciseData>)
    ensures |r| == |exs|
    ensures forall i :: 0 <= i < |r| && exs[i].id != exerciseId ==> r[i] == exs[i]
    ensures forall i :: 0 <= i < |r| && exs[i].id == exerciseId ==>
      r[i].mediaUrl == None && r[i] == exs[i].(mediaUrl := None)
  {
    MapExercise(exs, exerciseId, (e: ExerciseData) => e.(mediaUrl := None))
  }

  /** Attaching and then clearing leaves the exercise without a URL but
      still remembering the kind of the file last attached. */
  lemma ClearAfterAttachKeepsKind(exs: seq<ExerciseData>, exerciseId: string, file: MediaFile)
    ensures var r := ClearMedia(AttachMedia(exs, exerciseId, Some(file)), exerciseId);
      forall i :: 0 <= i < |r| && exs[i].id == exerciseId ==>
        r[i].mediaUrl == None && r[i].mediaType == Some(MediaKindOf(file.mimeType))
  {
  }

  /** `Math.ceil(elapsed / 60)`: the least number of whole minutes covering
      the elapsed seconds. */
  function DurationMinutes(elapsed: nat): (m: nat)
    ensures m * 60 >= elapsed
    ensures m > 0 ==> (m - 1) * 60 < elapsed
  {
    (elapsed + 59) / 60
  }

  /** The ceiling rule on examples: 0 s is 0 min, 1 s is 1 min, 61 s is 2 min. */
  lemma DurationExamples()
    ensures DurationMinutes(0) == 0 && DurationMinutes(1) == 1 && DurationMinutes(60) == 1 && DurationMinutes(61) == 2
  {
  }

  /** `handleFinish`: the session records the template's type, a circuit
      flag that holds exactly for circuit templates, the elapsed time
      rounded up to minutes, and exactly the current exercise list. */
  function Finish(ed: Editor, t: Template, sessionId: string, startedAt: int): (s: Session)
    ensures s.id == sessionId && s.date == startedAt
    ensures ParseSessionType(s.sessionType) == Some(t.sessionType)
    ensures s.isCircuit == Some(t.sessionType == Circuit)
    ensures s.durationMinutes * 60 >= ed.elapsedSeconds
    ensures s.durationMinutes > 0 ==> (s.durationMinutes - 1) * 60 < ed.elapsedSeconds
    ensures s.exercises == ed.exercises
    ensures s.notes == None
  {
    SessionTypeNameRoundTrip(t.sessionType);
    Session(sessionId, startedAt, SessionTypeName(t.sessionType), DurationMinutes(ed.elapsedSeconds), ed.exercises, Some(t.sessionType == Circuit), None)
  }

  /** Finishing after `n` ticks from a fresh start records ceil(n / 60) minutes. */
  lemma {:induction false} TicksThenFinish(ed: Editor, n: nat, t: Template, sessionId: string, startedAt: int)
    requires ed.elapsedSeconds == 0
    ensures Finish(Ticks(ed, n), t, sessionId, startedAt).durationMinutes == (n + 59) / 60
    ensures Finish(Ticks(ed, n), t, sessionId, startedAt).exercises == ed.exercises
  {
    TicksAdd(ed, n);
  }

  /** `n` successive ticks of the session timer. */
  function Ticks(ed: Editor, n: nat): Editor
    decreases n
  {
    if n == 0 then ed else Tick(Ticks(ed, n - 1))
  }

  /** After `n` ticks the counter has grown by exactly `n` and the
      exercises are untouched. */
  lemma {:induction false} TicksAdd(ed: Editor, n: nat)
    ensures Ticks(ed, n).elapsedSeconds == ed.elapsedSeconds + n
    ensures Ticks(ed, n).exercises == ed.exercises
    decreases n
  {
    if n > 0 {
      TicksAdd(ed, n - 1);
    }
  }

  /** Reads a header clock back: minutes before the colon, seconds after it. */
  function ParseElapsed(r: string): nat
    requires |r| >= 3
  {
    DigitsValue(r[..|r| - 3]) * 60 + DigitsValue(r[|r| - 2..])
  }

  /** Joining a minutes field and a two-digit seconds field with a colon
      reads back as the minutes times sixty plus the seconds. */
  lemma ClockReadBack(mm: string, ss: string)
    requires |mm| >= 2 && |ss| == 2
    ensures var r := mm + ":" + ss;
      && |r| >= 5 && r[|r| - 3] == ':' && r[|r| - 2..] == ss
      && ParseElapsed(r) == DigitsValue(mm) * 60 + DigitsValue(ss)
      && (AllDigits(mm) && AllDigits(ss) ==> forall i :: 0 <= i < |r| && i != |r| - 3 ==> IsDigit(r[i]))
  {
    var r := mm + ":" + ss;
    assert r[..|r| - 3] == mm;
    assert r[|r| - 2..] == ss;
    assert forall i :: 0 <= i < |mm| ==> r[i] == mm[i];
    assert forall i :: 0 <= i < 2 ==> r[|mm| + 1 + i] == ss[i];
  }

  /** The header clock, `mm:ss` with minutes not capped at 59: zero-padded
      digits on both sides of the colon, no leading zero in a minutes field
      wider than two, the seconds field below 60, and reading the clock back
      gives the elapsed seconds. */
  function FormatElapsed(secs: nat): (r: string)
    ensures |r| >= 5 && r[|r| - 3] == ':'
    ensures forall i :: 0 <= i < |r| && i != |r| - 3 ==> IsDigit(r[i])
    ensures |r| > 5 ==> r[0] != '0'
    ensures DigitsValue(r[|r| - 2..]) < 60
    ensures ParseElapsed(r) == secs
  {
    var m := Pad2(secs / 60);
    var s := Pad2(secs % 60);
    ClockReadBack(m, s);
    assert (m + ":" + s)[0] == m[0];
    m + ":" + s
  }

  /** Distinct elapsed times show distinct clock faces. */
  lemma FormatElapsedInjective(a: nat, b: nat)
    ensures FormatElapsed(a) == FormatElapsed(b) ==> a == b
  {
    if FormatElapsed(a) == FormatElapsed(b) {
      assert a == ParseElapsed(FormatElapsed(a)) == ParseElapsed(FormatElapsed(b)) == b;
    }
  }
}

=== FILE: app.dfy ===
/** The application shell: which view is showing and the in-memory copies
    of sessions, profile and plan, wired to the persistence layer and the
    account service. The browser store is split in two here: the three
    app keys (`Storage.Store`) and the two account keys (`Auth.AuthStore`).
    Clock readings (`Date.now()`, today's weekday name) and the weekly-plan
    generator's answer are parameters. */
module App {
  import opened Types
  import opened Text
  import Storage
  import Auth
  import ActiveSession
  import Dashboard

  datatype AppState = AppState(
    view: ViewState,
    sessions: seq<Session>,
    activeTemplate: Option<Template>,
    selectedSession: Option<Session>,
    user: Option<User>,
    profile: Option<UserProfile>,
    plan: Option<WeeklyPlan>)

  datatype World = World(app: AppState, store: Storage.Store, auth: Auth.AuthStore)

  /** The state before the mount effect runs. */
  const InitialApp: AppState := AppState(AuthScreen, [], None, None, None, None, None)

  /** The mount effect: with nobody signed in, the auth screen; otherwise
      sessions and plan are loaded, and the view is the dashboard when a
      profile is stored and the profile wizard when not. */
  function Mount(store: Storage.Store, auth: Auth.AuthStore): (a: AppState)
    ensures Auth.GetCurrentUser(auth) == None ==> a == InitialApp
    ensures Auth.GetCurrentUser(auth).Some? ==>
      && a.user == Auth.GetCurrentUser(auth)
      && a.sessions == Storage.GetSessions(store)
      && a.plan == Storage.GetWeeklyPlan(store)
      && a.profile == Storage.GetUserProfile(store)
      && (a.view == DashboardScreen <==> Storage.GetUserProfile(store).Some?)
      && (a.view == ProfileWizardScreen <==> Storage.GetUserProfile(store) == None)
  {
    match Auth.GetCurrentUser(auth)
    case None => InitialApp
    case Some(u) =>
      var loaded := Storage.GetUserProfile(store);
      InitialApp.(
        user := Some(u),
        sessions := Storage.GetSessions(store),
        plan := Storage.GetWeeklyPlan(store),
        profile := loaded,
        view := if loaded.Some? then DashboardScreen else ProfileWizardScreen)
  }

  /** `handleAuthSuccess`: records the user and routes by whether a profile
      is stored. Sessions and plan are not loaded here. */
  function HandleAuthSuccess(a: AppState, store: Storage.Store, u: User): (r: AppState)
    ensures r.user == Some(u)
    ensures r.sessions == a.sessions && r.plan == a.plan
    ensures Storage.GetUserProfile(store).Some? ==> r.profile == Storage.GetUserProfile(store) && r.view == DashboardScreen
    ensures Storage.GetUserProfile(store) == None ==> r.profile == a.profile && r.view == ProfileWizardScreen
  {
    match Storage.GetUserProfile(store)
    case Some(p) => a.(user := Some(u), profile := Some(p), view := DashboardScreen)
    case None => a.(user := Some(u), view := ProfileWizardScreen)
  }

  /** `handleLogout`: signs out and forgets user, profile, sessions and
      plan; the active template and selected session are left as they were. */
  function HandleLogout(w: World): (r: World)
    ensures r.app.view == AuthScreen && r.app.user == None && r.app.profile == None
    ensures r.app.sessions == [] && r.app.plan == None
    ensures r.app.activeTemplate == w.app.activeTemplate && r.app.selectedSession == w.app.selectedSession
    ensures r.store == w.store && Auth.GetCurrentUser(r.auth) == None && r.auth.users == w.auth.users
  {
    World(w.app.(user := None, profile := None, sessions := [], plan := None, view := AuthScreen), w.store, Auth.Logout(w.auth))
  }

  /** Signing out and back in lands on the dashboard of the stored profile
      with no sessions and no plan in memory, whatever is stored, until the
      app is mounted again. */
  lemma ReloginShowsNoHistory(w: World, u: User)
    requires Storage.GetUserProfile(w.store).Some?
    ensures var out := HandleLogout(w);
      var back := HandleAuthSuccess(out.app, out.store, u);
      back.view == DashboardScreen && back.sessions == [] && back.plan == None
  {
  }

  /** Mounting again after such a sign-in does load the stored history. */
  lemma RemountLoadsHistory(w: World, u: User)
    requires Auth.GetCurrentUser(w.auth) == Some(u)
    ensures Mount(w.store, w.auth).sessions == Storage.GetSessions(w.store)
  {
  }

  /** `handleCreateProfile`: adopts and saves the profile, then shows the dashboard. */
  function HandleCreateProfile(w: World, p: UserProfile): (r: World)
    ensures r.app == w.app.(profile := Some(p), view := DashboardScreen)
    ensures Storage.GetUserProfile(r.store) == Some(p)
    ensures Storage.GetSessions(r.store) == Storage.GetSessions(w.store)
    ensures Storage.GetWeeklyPlan(r.store) == Storage.GetWeeklyPlan(w.store)
    ensures r.auth == w.auth
  {
    Storage.SavesAreIndependent(w.store, Session("", 0, "", 0, [], None, None), false, p, WeeklyPlan("", "", [], ""));
    World(w.app.(profile := Some(p), view := DashboardScreen), Storage.SaveUserProfile(w.store, p), w.auth)
  }

  /** The plain navigation handlers (`handleUpdateProfile`,
      `handleCreateSession`, the chat and profile buttons, the back buttons
      and the tab bar) change the view and nothing else. */
  function Navigate(a: AppState, v: ViewState): (r: AppState)
    ensures r.view == v && r.(view := a.view) == a
  {
    a.(view := v)
  }

  /** `handleSelectTemplate`. */
  function HandleSelectTemplate(a: AppState, t: Template): (r: AppState)
    ensures r.activeTemplate == Some(t) && r.view == ActiveSessionScreen
    ensures r.(activeTemplate := a.activeTemplate, view := a.view) == a
  {
    a.(activeTemplate := Some(t), view := ActiveSessionScreen)
  }

  /** The exercise names of a plan day, in order. */
  function ExerciseNames(exs: seq<ProgramExercise>): (r: seq<string>)
    ensures |r| == |exs| && forall i :: 0 <= i < |exs| ==> r[i] == exs[i].name
  {
    seq(|exs|, i requires 0 <= i < |exs| => exs[i].name)
  }

  /** The template `handleStartPlanSession` builds from a plan day; `stamp`
      is `Date.now()`. */
  function PlanDayTemplate(day: DailyPlan, stamp: nat): (t: Template)
    ensures IsPrefix("plan-", t.id) && DigitsValue(t.id[5..]) == stamp
    ensures t.name == day.focus && t.sessionType == day.sessionType
    ensures t.description == "Scheduled session for " + day.day
    ensures |t.defaultExercises| == |day.exercises|
    ensures forall i :: 0 <= i < |day.exercises| ==> t.defaultExercises[i] == day.exercises[i].name
    ensures t.detailedExercises == Some(day.exercises)
  {
    NatToStringRoundTrip(stamp);
    var id := "plan-" + NatToString(stamp);
    assert id[..5] == "plan-" && id[5..] == NatToString(stamp);
    Template(id, day.focus, day.sessionType, "Scheduled session for " + day.day, ExerciseNames(day.exercises), Some(day.exercises))
  }

  function HandleStartPlanSession(a: AppState, day: DailyPlan, stamp: nat): (r: AppState)
    ensures r == HandleSelectTemplate(a, PlanDayTemplate(day, stamp))
  {
    a.(activeTemplate := Some(PlanDayTemplate(day, stamp)), view := ActiveSessionScreen)
  }

  /** Running a plan day seeds the editor with the day's exercises in order,
      and finishing it records the day's session type. */
  lemma PlanDayRunsAsPlanned(day: DailyPlan, stamp: nat, exerciseIds: seq<string>, setIds: seq<string>, sessionId: string, startedAt: int)
    requires |exerciseIds| == |day.exercises| && |setIds| == |day.exercises|
    ensures var t := PlanDayTemplate(day, stamp);
      var ed := ActiveSession.Start(t, exerciseIds, setIds);
      && ActiveSession.Names(ed.exercises) == ExerciseNames(day.exercises)
      && ParseSessionType(ActiveSession.Finish(ed, t, sessionId, startedAt).sessionType) == Some(day.sessionType)
  {
  }

  /** `handleGenerateWeeklyPlan`: with a profile and a generated plan, the
      plan is adopted and saved; otherwise nothing changes. */
  function HandleGenerateWeeklyPlan(w: World, generated: Option<WeeklyPlan>): (r: World)
    ensures w.app.profile.Some? && generated.Some? ==>
      && r.app == w.app.(plan := generated)
      && r.store == Storage.SaveWeeklyPlan(w.store, generated.value)
      && r.auth == w.auth
    ensures w.app.profile == None || generated == None ==> r == w
  {
    if w.app.profile.Some? && generated.Some? then
      World(w.app.(plan := generated), Storage.SaveWeeklyPlan(w.store, generated.value), w.auth)
    else w
  }

  /** `handleFinishSession`: saves the session and shows what the save
      returned; when a plan is in memory, marks today's day in the stored
      plan and reloads the plan from the store; then back to the dashboard
      with no active template. `today` is the weekday name of the clock. */
  function HandleFinishSession(w: World, s: Session, today: string, writeSucceeds: bool): (r: World)
    ensures r.app.sessions == Storage.SaveSession(w.store, s, writeSucceeds).sessions
    ensures r.app.view == DashboardScreen && r.app.activeTemplate == None
    ensures r.app.user == w.app.user && r.app.profile == w.app.profile && r.auth == w.auth
    ensures w.app.plan == None ==>
      r.app.plan == None && r.store == Storage.SaveSession(w.store, s, writeSucceeds).store
    ensures w.app.plan.Some? ==>
      var saved := Storage.SaveSession(w.store, s, writeSucceeds).store;
      && r.store == Storage.MarkPlanDayComplete(saved, today)
      && r.app.plan == Storage.GetWeeklyPlan(r.store)
  {
    var saved := Storage.SaveSession(w.store, s, writeSucceeds);
    var store := if w.app.plan.Some? then Storage.MarkPlanDayComplete(saved.store, today) else saved.store;
    var plan := if w.app.plan.Some? then Storage.GetWeeklyPlan(store) else w.app.plan;
    World(w.app.(sessions := saved.sessions, plan := plan, view := DashboardScreen, activeTemplate := None), store, w.auth)
  }

  /** The two writes never disturb each other: a successful finish with a
      plan in memory puts the session first in the stored history and marks
      today in the stored plan. */
  lemma FinishMarksToday(w: World, s: Session, today: string)
    requires w.app.plan.Some? && Storage.GetWeeklyPlan(w.store).Some?
    ensures var r := HandleFinishSession(w, s, today, true);
      && Storage.GetSessions(r.store) == [s] + Storage.GetSessions(w.store)
      && r.app.sessions == Storage.GetSessions(r.store)
      && r.app.plan == Some(Storage.MarkDay(Storage.GetWeeklyPlan(w.store).value, today))
  {
    Storage.SavesAreIndependent(w.store, s, true, UserProfile("", 0, "", Beginner, "", "", 0, false), WeeklyPlan("", "", [], ""));
    Storage.KeysDistinct();
  }

  /** With no plan in memory the stored plan is left alone, even when one is stored. */
  lemma FinishWithoutPlanKeepsStoredPlan(w: World, s: Session, today: string, ok: bool)
    requires w.app.plan == None
    ensures Storage.GetWeeklyPlan(HandleFinishSession(w, s, today, ok).store) == Storage.GetWeeklyPlan(w.store)
  {
    Storage.SavesAreIndependent(w.store, s, ok, UserProfile("", 0, "", Beginner, "", "", 0, false), WeeklyPlan("", "", [], ""));
  }

  /** A plan in memory whose stored copy is gone (or unreadable) is dropped
      on finishing, because the plan is reloaded from the store. */
  lemma FinishDropsPlanMissingFromStore(w: World, s: Session, today: string, ok: bool)
    requires w.app.plan.Some? && Storage.GetWeeklyPlan(w.store) == None
    ensures HandleFinishSession(w, s, today, ok).app.plan == None
  {
    Storage.SavesAreIndependent(w.store, s, ok, UserProfile("", 0, "", Beginner, "", "", 0, false), WeeklyPlan("", "", [], ""));
  }

  /** A finished Monday session on an empty history with a Monday plan day:
      the history becomes that one session, and Monday's card shows Done
      while the other days are as they were. */
  lemma MondayScenario(w: World, s: Session, plan: WeeklyPlan)
    requires Storage.GetSessions(w.store) == [] && Storage.GetWeeklyPlan(w.store) == Some(plan) && w.app.plan.Some?
    ensures var r := HandleFinishSession(w, s, "Monday", true);
      && r.app.sessions == [s]
      && r.app.plan.Some?
      && |r.app.plan.value.days| == |plan.days|
      && (forall i :: 0 <= i < |plan.days| && plan.days[i].day == "Monday" ==>
            r.app.plan.value.days[i].completed && Dashboard.DayCardStatus(r.app.plan.value.days[i]) == Dashboard.Done)
      && (forall i :: 0 <= i < |plan.days| && plan.days[i].day != "Monday" ==> r.app.plan.value.days[i] == plan.days[i])
  {
    FinishMarksToday(w, s, "Monday");
  }

  /** `handleCancelSession`. */
  function HandleCancelSession(a: AppState): (r: AppState)
    ensures r.view == DashboardScreen && r.activeTemplate == None
    ensures r.(view := a.view, activeTemplate := a.activeTemplate) == a
  {
    a.(view := DashboardScreen, activeTemplate := None)
  }

  /** `handleSelectSession`. */
  function HandleSelectSession(a: AppState, s: Session): (r: AppState)
    ensures r.view == SessionDetailsScreen && r.selectedSession == Some(s)
    ensures r.(view := a.view, selectedSession := a.selectedSession) == a
  {
    a.(view := SessionDetailsScreen, selectedSession := Some(s))
  }

  /** The sport passed to the new-session screen: the profile's sport, or
      null when there is no profile or its sport is empty. */
  function UserSport(a: AppState): (r: Option<string>)
    ensures r.Some? <==> a.profile.Some? && a.profile.value.sport != []
    ensures r.Some? ==> r.value == a.profile.value.sport
  {
    if a.profile.Some? && a.profile.value.sport != [] then Some(a.profile.value.sport) else None
  }

  /** `onUpdateSport`: changes only the sport of an existing profile and
      saves it; without a profile nothing happens. */
  function OnUpdateSport(w: World, sport: string): (r: World)
    ensures w.app.profile == None ==> r == w
    ensures w.app.profile.Some? ==>
      && r.app == w.app.(profile := Some(w.app.profile.value.(sport := sport)))
      && Storage.GetUserProfile(r.store) == r.app.profile
      && r.auth == w.auth
  {
    match w.app.profile
    case None => w
    case Some(p) =>
      var updated := p.(sport := sport);
      World(w.app.(profile := Some(updated)), Storage.SaveUserProfile(w.store, updated), w.auth)
  }

  /** With a profile, choosing a non-empty sport makes it the sport the
      new-session screen is given; without one, the screen keeps asking. */
  lemma UpdatedSportIsUserSport(w: World, sport: string)
    requires sport != []
    ensures w.app.profile.Some? ==> UserSport(OnUpdateSport(w, sport).app) == Some(sport)
    ensures w.app.profile == None ==> UserSport(OnUpdateSport(w, sport).app) == None
  {
  }

  /** The bottom tab bar shows on the four top-level views only. */
  predicate TabBarVisible(v: ViewState)
    ensures TabBarVisible(v) <==> ViewName(v) in ["dashboard", "tracker", "history", "profile"]
  {
    v in {DashboardScreen, TrackerScreen, HistoryScreen, ProfileScreen}
  }

  /** The Home, Tracker, History and Profile tabs keep the tab bar on
      screen and change nothing but the view. */
  lemma TabsKeepTabBar(a: AppState, v: ViewState)
    requires v == DashboardScreen || v == TrackerScreen || v == HistoryScreen || v == ProfileScreen
    ensures TabBarVisible(Navigate(a, v).view)
    ensures Navigate(a, v).(view := a.view) == a
  {
  }

  /** Editing a session, choosing a sport, signing in, chatting and
      viewing one session's details all hide the tab bar. */
  lemma TabBarHiddenOnTaskViews()
    ensures !TabBarVisible(ActiveSessionScreen) && !TabBarVisible(NewSessionScreen) && !TabBarVisible(AuthScreen)
    ensures !TabBarVisible(ChatScreen) && !TabBarVisible(SessionDetailsScreen) && !TabBarVisible(ProfileWizardScreen)
    ensures forall v :: TabBarVisible(v) <==> ViewName(v) in ["dashboard", "tracker", "history", "profile"]
  {
  }
}

=== FILE: auth.dfy ===
/** The simulated account service: a list of user records (with their
    plain-text passwords) and the signed-in user, both kept in the browser
    store under keys of their own. The artificial network delay is left
    out; each call is one atomic step. */
module Auth {
  import opened Types
  import opened Seqs

  /** A record of the users list. */
  datatype UserRecord = UserRecord(id: string, name: string, email: string, password: string)

  /** The users list and the signed-in user (`null` when nobody is). */
  datatype AuthStore = AuthStore(users: seq<UserRecord>, current: Option<User>)

  /** A call either signs a user in, giving the new store and the user, or
      fails with the error's message. */
  datatype AuthResult = Authenticated(store: AuthStore, user: User) | Rejected(message: string)

  const InvalidCredentials: string := "Invalid credentials"
  const UserExists: string := "User already exists"

  /** The user object handed to the app: the record without its password. */
  function SessionUser(u: UserRecord): (r: User)
    ensures r.id == u.id && r.name == u.name && r.email == u.email && r.avatarUrl == None
  {
    User(u.id, u.name, u.email, None)
  }

  function Credentials(email: string, password: string): UserRecord -> bool {
    (u: UserRecord) => u.email == email && u.password == password
  }

  function HasEmail(email: string): UserRecord -> bool {
    (u: UserRecord) => u.email == email
  }

  /** `login`: the first record whose email and password both match becomes
      the signed-in user; when none matches the call fails with
      "Invalid credentials" and nothing is written. */
  function Login(st: AuthStore, email: string, password: string): (r: AuthResult)
    ensures r.Rejected? <==> forall i :: 0 <= i < |st.users| ==> !(st.users[i].email == email && st.users[i].password == password)
    ensures r.Rejected? ==> r.message == InvalidCredentials
    ensures r.Authenticated? ==>
      && r.user.email == email
      && r.store == st.(current := Some(r.user))
      && exists i :: 0 <= i < |st.users| && Credentials(email, password)(st.users[i]) && r.user == SessionUser(st.users[i])
           && forall j :: 0 <= j < i ==> !Credentials(email, password)(st.users[j])
  {
    var i := FindFirst(st.users, Credentials(email, password));
    if i == |st.users| then Rejected(InvalidCredentials)
    else
      var user := SessionUser(st.users[i]);
      Authenticated(st.(current := Some(user)), user)
  }

  /** No two records share an email address. */
  predicate UniqueEmails(users: seq<UserRecord>) {
    forall i, j :: 0 <= i < j < |users| ==> users[i].email != users[j].email
  }

  /** `signup`: an email already on the list fails with "User already
      exists"; otherwise a record with the fresh id is appended and becomes
      the signed-in user. The id is random in the application and a
      parameter here. */
  function Signup(st: AuthStore, name: string, email: string, password: string, freshId: string): (r: AuthResult)
    ensures r.Rejected? <==> exists i :: 0 <= i < |st.users| && st.users[i].email == email
    ensures r.Rejected? ==> r.message == UserExists
    ensures r.Authenticated? ==>
      && r.store.users == st.users + [UserRecord(freshId, name, email, password)]
      && r.user == User(freshId, name, email, None)
      && r.store.current == Some(r.user)
  {
    var i := FindFirst(st.users, HasEmail(email));
    if i < |st.users| then Rejected(UserExists)
    else
      var record := UserRecord(freshId, name, email, password);
      var user := SessionUser(record);
      Authenticated(AuthStore(st.users + [record], Some(user)), user)
  }

  /** Sign-up keeps emails unique on the users list. */
  lemma SignupPreservesUniqueEmails(st: AuthStore, name: string, email: string, password: string, freshId: string)
    requires UniqueEmails(st.users)
    ensures var r := Signup(st, name, email, password, freshId);
      r.Authenticated? ==> UniqueEmails(r.store.users)
  {
  }

  /** After a successful sign-up, signing in with the same email and
      password signs in as the new user. */
  lemma LoginAfterSignup(st: AuthStore, name: string, email: string, password: string, freshId: string)
    requires Signup(st, name, email, password, freshId).Authenticated?
    ensures var after := Signup(st, name, email, password, freshId).store;
      Login(after, email, password) == Authenticated(after, User(freshId, name, email, None))
  {
    var after := Signup(st, name, email, password, freshId).store;
    var k := FindFirst(after.users, Credentials(email, password));
    assert Credentials(email, password)(after.users[|st.users|]);
    assert k == |st.users|;
  }

  /** After a successful sign-up the same email cannot sign up again. */
  lemma SignupTwiceRejected(st: AuthStore, name: string, email: string, password: string, id1: string,
                            name2: string, password2: string, id2: string)
    requires Signup(st, name, email, password, id1).Authenticated?
    ensures Signup(Signup(st, name, email, password, id1).store, name2, email, password2, id2) == Rejected(UserExists)
  {
    var after := Signup(st, name, email, password, id1).store;
    assert after.users[|st.users|].email == email;
  }

  /** With unique emails, a wrong password for a known email is rejected. */
  lemma WrongPasswordRejected(st: AuthStore, email: string, password: string)
    requires UniqueEmails(st.users)
    requires exists i :: 0 <= i < |st.users| && st.users[i].email == email && st.users[i].password != password
    ensures Login(st, email, password) == Rejected(InvalidCredentials)
  {
  }

  /** The fixed account the simulated Google sign-in returns. */
  const GoogleUser: User := User("google-user-123", "Google User", "user@gmail.com",
    Some("https://ui-avatars.com/api/?name=Google+User&background=0D8ABC&color=fff"))

  /** `mockGoogleLogin`: signs in the fixed Google account without touching
      the users list. */
  function MockGoogleLogin(st: AuthStore): (r: AuthResult)
    ensures r.Authenticated? && r.user == GoogleUser
    ensures r.store.users == st.users && GetCurrentUser(r.store) == Some(GoogleUser)
  {
    Authenticated(st.(current := Some(GoogleUser)), GoogleUser)
  }

  /** `logout`: forgets the signed-in user; the users list stays. */
  function Logout(st: AuthStore): (r: AuthStore)
    ensures r.users == st.users && GetCurrentUser(r) == None
  {
    st.(current := None)
  }

  /** `getCurrentUser`: the signed-in user, or `null`. */
  function GetCurrentUser(st: AuthStore): Option<User> {
    st.current
  }

  /** The current user is whoever the last successful call signed in:
      after a login or sign-up it is the user that call returned, after a
      logout there is none; a rejected call hands back no store at all. */
  lemma CurrentUserIsLastSignedIn(st: AuthStore, name: string, email: string, password: string, freshId: string)
    ensures var r := Login(st, email, password);
      r.Authenticated? ==> GetCurrentUser(r.store) == Some(r.user) && r.store.users == st.users
    ensures var r := Signup(st, name, email, password, freshId);
      r.Authenticated? ==> GetCurrentUser(r.store) == Some(r.user)
    ensures GetCurrentUser(Logout(st)) == None
  {
  }
}

=== FILE: auth_view.dfy ===
/** The sign-in / sign-up screen: a form with a mode switch, three inputs,
    an error banner and a loading flag. A submission is one atomic step
    that runs the account call to completion, so the loading flag is
    raised and lowered within it. */
module AuthView {
  import opened Types
  import Auth

  datatype Form = Form(isLogin: bool, isLoading: bool, error: Option<string>, name: string, email: string, password: string)

  /** The screen as first shown: sign-in mode, no error, empty inputs. */
  const InitialForm: Form := Form(true, false, None, "", "", "")

  datatype Field = NameField | EmailField | PasswordField

  function FieldValue(f: Form, field: Field): string {
    match field
    case NameField => f.name
    case EmailField => f.email
    case PasswordField => f.password
  }

  /** `handleChange`: the edited input takes the typed value, the others
      keep theirs, and the error banner is cleared. */
  function HandleChange(f: Form, field: Field, value: string): (r: Form)
    ensures FieldValue(r, field) == value
    ensures forall other :: other != field ==> FieldValue(r, other) == FieldValue(f, other)
    ensures r.error == None && r.isLogin == f.isLogin && r.isLoading == f.isLoading
  {
    match field
    case NameField => f.(name := value, error := None)
    case EmailField => f.(email := value, error := None)
    case PasswordField => f.(password := value, error := None)
  }

  /** The "Sign In" / "Sign Up" tabs: switch mode and clear the error; what
      was typed stays. */
  function SelectMode(f: Form, login: bool): (r: Form)
    ensures r.isLogin == login && r.error == None
    ensures r.name == f.name && r.email == f.email && r.password == f.password
  {
    f.(isLogin := login, error := None)
  }

  const NameRequired: string := "Name is required"
  const FallbackError: string := "Something went wrong"
  const GoogleFailed: string := "Google sign in failed"

  /** `err.message || "Something went wrong"`: the banner never shows an
      empty message. */
  function ErrorText(message: string): (r: string)
    ensures r != []
    ensures message != [] ==> r == message
  {
    if message == [] then FallbackError else message
  }

  /** What a submission leaves behind: the form, the account store, and the
      user handed to the app when it succeeded. */
  datatype Outcome = Outcome(form: Form, store: Auth.AuthStore, signedIn: Option<User>)

  /** The browser refuses to submit while a required input (email,
      password) is empty, and the submit button is disabled while loading. */
  predicate CanSubmit(f: Form) {
    !f.isLoading && f.email != [] && f.password != []
  }

  /** `handleSubmit`: sign in, or in sign-up mode first insist on a name and
      then sign up. A success hands the user to the app with no error
      showing; a failure shows the error's message. Loading is over
      afterwards in either case, and the inputs are kept. */
  function Submit(f: Form, st: Auth.AuthStore, freshId: string): (r: Outcome)
    ensures !CanSubmit(f) ==> r == Outcome(f, st, None)
    ensures CanSubmit(f) ==>
      && !r.form.isLoading
      && r.form.(isLoading := f.isLoading, error := f.error) == f
      && (r.signedIn.Some? <==> r.form.error == None)
      && (r.form.error.Some? ==> r.form.error.value != [] && r.store == st)
    ensures CanSubmit(f) && f.isLogin ==>
      (r.signedIn.Some? <==> Auth.Login(st, f.email, f.password).Authenticated?)
    ensures CanSubmit(f) && !f.isLogin && f.name == [] ==> r.form.error == Some(NameRequired)
    ensures CanSubmit(f) && !f.isLogin && f.name != [] ==>
      (r.signedIn.Some? <==> Auth.Signup(st, f.name, f.email, f.password, freshId).Authenticated?)
  {
    if !CanSubmit(f) then Outcome(f, st, None)
    else
      var call :=
        if f.isLogin then Auth.Login(st, f.email, f.password)
        else if f.name == [] then Auth.Rejected(NameRequired)
        else Auth.Signup(st, f.name, f.email, f.password, freshId);
      match call
      case Authenticated(st', user) => Outcome(f.(error := None, isLoading := false), st', Some(user))
      case Rejected(message) => Outcome(f.(error := Some(ErrorText(message)), isLoading := false), st, None)
  }

  /** Submitting the sign-in form with the credentials just registered
      signs in as that user and clears the error. */
  lemma SignUpThenSignIn(f: Form, st: Auth.AuthStore, freshId: string, otherId: string)
    requires CanSubmit(f) && !f.isLogin && f.name != []
    requires Submit(f, st, freshId).signedIn.Some?
    ensures var up := Submit(f, st, freshId);
      var back := Submit(SelectMode(up.form, true), up.store, otherId);
      back.signedIn == Some(User(freshId, f.name, f.email, None)) && back.form.error == None
  {
    Auth.LoginAfterSignup(st, f.name, f.email, f.password, freshId);
  }

  /** The Google button: disabled while loading. It signs the fixed account
      in; only a failure (a parameter here) touches the error banner, so a
      success leaves an earlier error showing. */
  function GoogleSignIn(f: Form, st: Auth.AuthStore, succeeds: bool): (r: Outcome)
    ensures f.isLoading ==> r == Outcome(f, st, None)
    ensures !f.isLoading ==> !r.form.isLoading && r.form.(error := f.error) == f
    ensures !f.isLoading && succeeds ==> r.signedIn == Some(Auth.GoogleUser) && r.form.error == f.error
    ensures !f.isLoading && !succeeds ==> r.signedIn == None && r.form.error == Some(GoogleFailed) && r.store == st
  {
    if f.isLoading then Outcome(f, st, None)
    else if succeeds then
      var call := Auth.MockGoogleLogin(st);
      Outcome(f, call.store, Some(call.user))
    else Outcome(f.(error := Some(GoogleFailed)), st, None)
  }
}

=== FILE: chat.dfy ===
/** The coach chat screen. Sending is split in two the way the screen
    awaits the model: `Send` appends the user's message and yields the
    request made to the coach; `Receive` appends the coach's answer.
    Message ids come from the clock and are parameters. */
module Chat {
  import opened Types
  import opened Text

  datatype Role = UserRole | ModelRole

  datatype Message = Message(id: string, role: Role, text: string)

  /** One turn of history in the shape the model's SDK takes. */
  datatype Part = Part(text: string)
  datatype HistoryEntry = HistoryEntry(role: Role, parts: seq<Part>)

  datatype ChatState = ChatState(messages: seq<Message>, input: string, isLoading: bool)

  /** The coach's greeting, naming the user and their sport. */
  function Welcome(profile: UserProfile): (m: Message)
    ensures m.id == "welcome" && m.role == ModelRole
  {
    Message("welcome", ModelRole,
      "Hey " + profile.name + "! I'm your JellyCoach. How is your " + profile.sport + " training going?")
  }

  function InitChat(profile: UserProfile): (st: ChatState)
    ensures st.messages == [Welcome(profile)] && st.input == [] && !st.isLoading
  {
    ChatState([Welcome(profile)], [], false)
  }

  function TypeInput(st: ChatState, text: string): (r: ChatState)
    ensures r.input == text && r.messages == st.messages && r.isLoading == st.isLoading
  {
    st.(input := text)
  }

  /** The conversation so far as SDK history: one single-part entry per
      message, same roles, same texts, same order. */
  function History(msgs: seq<Message>): (h: seq<HistoryEntry>)
    ensures |h| == |msgs|
    ensures forall i :: 0 <= i < |msgs| ==> h[i].role == msgs[i].role && h[i].parts == [Part(msgs[i].text)]
  {
    seq(|msgs|, i requires 0 <= i < |msgs| => HistoryEntry(msgs[i].role, [Part(msgs[i].text)]))
  }

  /** Recovers the texts from SDK history. */
  function HistoryTexts(h: seq<HistoryEntry>): (texts: seq<string>)
    ensures |texts| == |h|
  {
    seq(|h|, i requires 0 <= i < |h| => if |h[i].parts| > 0 then h[i].parts[0].text else [])
  }

  /** No text is lost or altered on its way into history. */
  lemma HistoryKeepsTexts(msgs: seq<Message>)
    ensures forall i :: 0 <= i < |msgs| ==> HistoryTexts(History(msgs))[i] == msgs[i].text
  {
  }

  /** What is sent to the coach: the new message and the history before it. */
  datatype CoachRequest = CoachRequest(text: string, history: seq<HistoryEntry>)

  datatype Sent = Sent(state: ChatState, request: Option<CoachRequest>)

  /** `handleSend`: nothing happens for a blank input or while waiting.
      Otherwise the input, untrimmed, becomes a user message, the input is
      cleared, the screen waits, and the coach is asked with the history
      as it was before this message. */
  function Send(st: ChatState, msgId: string): (r: Sent)
    ensures AllSpace(st.input) || st.isLoading ==> r == Sent(st, None)
    ensures !AllSpace(st.input) && !st.isLoading ==>
      && r.state.messages == st.messages + [Message(msgId, UserRole, st.input)]
      && r.state.input == [] && r.state.isLoading
      && r.request == Some(CoachRequest(st.input, History(st.messages)))
  {
    if Trim(st.input) == [] || st.isLoading then Sent(st, None)
    else Sent(ChatState(st.messages + [Message(msgId, UserRole, st.input)], [], true),
              Some(CoachRequest(st.input, History(st.messages))))
  }

  /** The coach's answer arrives: it is appended and waiting ends. */
  function Receive(st: ChatState, replyId: string, reply: string): (r: ChatState)
    requires st.isLoading
    ensures r.messages == st.messages + [Message(replyId, ModelRole, reply)]
    ensures !r.isLoading && r.input == st.input
  {
    ChatState(st.messages + [Message(replyId, ModelRole, reply)], st.input, false)
  }

  /** The conversation opens with the coach, then alternates speakers, and
      the screen is waiting exactly when the user spoke last. */
  predicate Valid(st: ChatState) {
    && |st.messages| >= 1
    && st.messages[0].role == ModelRole
    && (forall i :: 0 <= i < |st.messages| - 1 ==> st.messages[i].role != st.messages[i + 1].role)
    && (st.isLoading <==> st.messages[|st.messages| - 1].role == UserRole)
  }

  lemma InitValid(profile: UserProfile)
    ensures Valid(InitChat(profile))
  {
  }

  lemma SendKeepsValid(st: ChatState, msgId: string)
    requires Valid(st)
    ensures Valid(Send(st, msgId).state)
  {
  }

  lemma ReceiveKeepsValid(st: ChatState, replyId: string, reply: string)
    requires Valid(st) && st.isLoading
    ensures Valid(Receive(st, replyId, reply))
  {
  }

  /** A full exchange adds exactly the user's message and the answer, and
      the history sent starts with the coach's greeting. */
  lemma ExchangeFromStart(profile: UserProfile, text: string, msgId: string, replyId: string, reply: string)
    requires !AllSpace(text)
    ensures var sent := Send(TypeInput(InitChat(profile), text), msgId);
      && sent.request == Some(CoachRequest(text, [HistoryEntry(ModelRole, [Part(Welcome(profile).text)])]))
      && Receive(sent.state, replyId, reply).messages
         == [Welcome(profile), Message(msgId, UserRole, text), Message(replyId, ModelRole, reply)]
  {
    assert History([Welcome(profile)]) == [HistoryEntry(ModelRole, [Part(Welcome(profile).text)])];
  }
}

=== FILE: constants.dfy ===
/** The fixed data the app ships with: four padel routines and a week of
    sample training minutes for the dashboard chart. */
module Constants {
  import opened Types
  import ActiveSession

  /** One bar of the weekly-load chart. */
  datatype HistoryPoint = HistoryPoint(name: string, duration: nat)

  const MockHistoryData: seq<HistoryPoint> := [
    HistoryPoint("Mon", 45), HistoryPoint("Tue", 60), HistoryPoint("Wed", 0), HistoryPoint("Thu", 55),
    HistoryPoint("Fri", 90), HistoryPoint("Sat", 120), HistoryPoint("Sun", 30)
  ]

  const PadelTemplates: seq<Template> := [
    Template("strength-1", "Padel Power", Strength,
      "Explosive strength for smashes and fast court movement.",
      ["Squat Jumps", "Medicine Ball Slams", "Lateral Lunges", "Push Press"], None),
    Template("mobility-1", "Court Flow", Mobility,
      "Hip and shoulder mobility essential for rotation.",
      ["90/90 Hip Switch", "Thoracic Rotations", "Cat-Cow", "Wrist Mobility"], None),
    Template("perf-1", "Match Ready", Performance,
      "High intensity intervals mimicking rally length.",
      ["Shuttle Runs", "Shadow Swings", "Ladder Drills", "Box Jumps"], None),
    Template("circuit-1", "Full Body Circuit", Circuit,
      "Endurance and conditioning circuit.",
      ["Burpees", "Kettlebell Swings", "Plank", "Mountain Climbers"], None)
  ]

  /** Four templates, pairwise-distinct ids, one of each non-custom type in
      the order Strength, Mobility, Performance, Circuit, and four default
      exercises each. */
  lemma PadelTemplatesShape()
    ensures |PadelTemplates| == 4
    ensures forall i, j :: 0 <= i < j < |PadelTemplates| ==> PadelTemplates[i].id != PadelTemplates[j].id
    ensures PadelTemplates[0].sessionType == Strength && PadelTemplates[1].sessionType == Mobility
    ensures PadelTemplates[2].sessionType == Performance && PadelTemplates[3].sessionType == Circuit
    ensures forall i :: 0 <= i < |PadelTemplates| ==> |PadelTemplates[i].defaultExercises| == 4
  {
    assert PadelTemplates[0].id[0] == 's' && PadelTemplates[1].id[0] == 'm';
    assert PadelTemplates[2].id[0] == 'p' && PadelTemplates[3].id[0] == 'c';
  }

  /** Seven points, Monday to Sunday. */
  lemma MockHistoryShape()
    ensures |MockHistoryData| == 7
    ensures MockHistoryData[0].name == "Mon" && MockHistoryData[6].name == "Sun"
    ensures forall i, j :: 0 <= i < j < |MockHistoryData| ==> MockHistoryData[i].name != MockHistoryData[j].name
  {
    assert MockHistoryData[0].name[0] == 'M' && MockHistoryData[1].name[1] == 'u' && MockHistoryData[2].name[0] == 'W';
    assert MockHistoryData[3].name[1] == 'h' && MockHistoryData[4].name[0] == 'F' && MockHistoryData[5].name[1] == 'a';
    assert MockHistoryData[6].name[1] == 'u' && MockHistoryData[1].name[0] == 'T' && MockHistoryData[3].name[0] == 'T';
    assert MockHistoryData[5].name[0] == 'S' && MockHistoryData[6].name[0] == 'S';
  }

  /** Starting the circuit routine seeds its four exercises, and finishing
      it straight away records a zero-minute circuit session. */
  lemma CircuitTemplateRoundTrip(exerciseIds: seq<string>, setIds: seq<string>, sessionId: string, startedAt: int)
    requires |exerciseIds| == 4 && |setIds| == 4
    ensures var t := PadelTemplates[3];
      var ed := ActiveSession.Start(t, exerciseIds, setIds);
      var s := ActiveSession.Finish(ed, t, sessionId, startedAt);
      && |s.exercises| == 4 && s.exercises[2].name == "Plank"
      && s.isCircuit == Some(true) && s.durationMinutes == 0 && s.sessionType == "Circuit"
  {
  }
}

=== FILE: dashboard.dfy ===
/** The home screen: greeting, the weekly-plan widget, the two stat cards
    and the coach-insights box. The current instant is a parameter. */
module Dashboard {
  import opened Types
  import opened Text
  import opened Seqs
  import Storage
  import Gemini

  /** `sessions.reduce((acc, s) => acc + s.durationMinutes, 0)`. */
  function TotalMinutes(sessions: seq<Session>): (r: nat)
    ensures sessions == [] ==> r == 0
    ensures forall i :: 0 <= i < |sessions| ==> sessions[i].durationMinutes <= r
    decreases |sessions|
  {
    if |sessions| == 0 then 0 else sessions[0].durationMinutes + TotalMinutes(sessions[1..])
  }

  /** The total of a concatenation is the sum of the totals. */
  lemma {:induction false} TotalMinutesAppend(a: seq<Session>, b: seq<Session>)
    ensures TotalMinutes(a + b) == TotalMinutes(a) + TotalMinutes(b)
    decreases |a|
  {
    if |a| == 0 {
      assert a + b == b;
    } else {
      assert (a + b)[1..] == a[1..] + b;
      TotalMinutesAppend(a[1..], b);
    }
  }

  /** The "Total Focus Time" card: whole hours and the minutes left over. */
  function HoursAndMinutes(total: nat): (r: (nat, nat))
    ensures r.1 < 60 && r.0 * 60 + r.1 == total
  {
    (total / 60, total % 60)
  }

  /** Seven days in milliseconds. */
  const WeekMillis: int := 7 * 24 * 60 * 60 * 1000

  /** Started no earlier than one week before `now`. */
  function InWeek(now: int): Session -> bool {
    (s: Session) => s.date >= now - WeekMillis
  }

  /** The week is closed at its far end and open towards the future: a
      session dated exactly seven days ago counts, one a millisecond older
      does not, and a session dated later than now counts. */
  lemma InWeekBoundary(now: int, s: Session)
    ensures InWeek(now)(s.(date := now - WeekMillis))
    ensures !InWeek(now)(s.(date := now - WeekMillis - 1))
    ensures s.date >= now ==> InWeek(now)(s)
    ensures InWeek(now)(s) ==> forall earlier :: earlier <= now ==> InWeek(earlier)(s)
  {
  }

  /** The "Sessions This Week" card. */
  function SessionsThisWeek(sessions: seq<Session>, now: int): (r: nat)
    ensures r <= |sessions|
    ensures r > 0 <==> exists i :: 0 <= i < |sessions| && sessions[i].date >= now - WeekMillis
  {
    var recent := Filter(sessions, InWeek(now));
    assert recent != [] ==> recent[0] in recent;
    assert forall i :: 0 <= i < |sessions| && InWeek(now)(sessions[i]) ==> sessions[i] in recent;
    |recent|
  }

  /** Saving a session (which puts it first) adds one to the weekly count
      exactly when it started within the week. */
  lemma SessionsThisWeekAfterSave(s: Session, sessions: seq<Session>, now: int)
    ensures SessionsThisWeek([s] + sessions, now) == SessionsThisWeek(sessions, now) + (if s.date >= now - WeekMillis then 1 else 0)
  {
    FilterAppend([s], sessions, InWeek(now));
  }

  /** As time passes the weekly count can only drop. */
  lemma {:induction false} SessionsThisWeekAntitone(sessions: seq<Session>, earlier: int, later: int)
    requires earlier <= later
    ensures SessionsThisWeek(sessions, later) <= SessionsThisWeek(sessions, earlier)
    decreases |sessions|
  {
    if |sessions| > 0 {
      assert sessions == [sessions[0]] + sessions[1..];
      SessionsThisWeekAfterSave(sessions[0], sessions[1..], earlier);
      SessionsThisWeekAfterSave(sessions[0], sessions[1..], later);
      SessionsThisWeekAntitone(sessions[1..], earlier, later);
    }
  }

  /** `sessions.slice(0, 5)`: the (at most) five newest sessions. */
  function InsightSessions(sessions: seq<Session>): (r: seq<Session>)
    ensures |r| == if |sessions| < 5 then |sessions| else 5
    ensures r == sessions[..|r|]
  {
    if |sessions| < 5 then sessions else sessions[..5]
  }

  /** `fetchInsights`: asks for insights on the five newest sessions and
      shows whatever the service answers: a hint without a key or without
      sessions, the model's text, or a fixed message for an empty answer
      and for a failed call. The answer is never empty, so the Analyze
      button goes away. */
  function FetchInsights(sessions: seq<Session>, hasKey: bool, reply: Gemini.InsightReply): (r: string)
    ensures r != []
    ensures hasKey && sessions == [] ==> r == Gemini.NoSessionsMessage
    ensures !hasKey ==> r == Gemini.NoKeyMessage
    ensures hasKey && sessions != [] && reply.InsightText? && reply.text != [] ==> r == reply.text
    ensures hasKey && sessions != [] && reply == Gemini.InsightText([]) ==> r == Gemini.NoInsightMessage
    ensures hasKey && sessions != [] && reply.InsightFailed? ==> r == Gemini.UnavailableMessage
  {
    Gemini.TrainingInsights(hasKey, InsightSessions(sessions), reply)
  }

  /** The Analyze button shows while there are no insights. */
  predicate AnalyzeShown(insights: Option<string>) {
    insights == None || insights.value == []
  }

  lemma FetchHidesAnalyze(sessions: seq<Session>, hasKey: bool, reply: Gemini.InsightReply)
    ensures !AnalyzeShown(Some(FetchInsights(sessions, hasKey, reply)))
  {
  }

  /** `name.split(' ')[0]`: the characters before the first space. */
  function FirstToken(name: string): (r: string)
    ensures IsPrefix(r, name)
    ensures forall i :: 0 <= i < |r| ==> r[i] != ' '
    ensures r == name || name[|r|] == ' '
  {
    name[..FindFirst(name, (c: char) => c == ' ')]
  }

  const DefaultGreetingName: string := "Athlete"

  /** The name in "Hello, …": the first word of the profile name, or
      "Athlete" when there is no profile or that word is empty. */
  function GreetingName(profile: Option<UserProfile>): (r: string)
    ensures r != []
    ensures profile == None ==> r == DefaultGreetingName
    ensures profile.Some? && FirstToken(profile.value.name) != [] ==> r == FirstToken(profile.value.name)
    ensures profile.Some? && FirstToken(profile.value.name) == [] ==> r == DefaultGreetingName
  {
    if profile.Some? && FirstToken(profile.value.name) != [] then FirstToken(profile.value.name) else DefaultGreetingName
  }

  /** The line under the greeting. */
  function Subtitle(profile: Option<UserProfile>): (r: string)
    ensures profile.Some? && profile.value.sport != [] ==> r == profile.value.sport + " Training"
    ensures profile == None || profile.value.sport == [] ==> r == "Ready to train?"
  {
    if profile.Some? && profile.value.sport != [] then profile.value.sport + " Training" else "Ready to train?"
  }

  /** The bottom of a day card: done, a Start button, or the rest-day note. */
  datatype DayCard = Done | StartButton | ActiveRecovery

  function DayCardStatus(d: DailyPlan): (c: DayCard)
    ensures c == Done <==> d.completed
    ensures c == StartButton <==> !d.completed && !d.isRestDay
    ensures c == ActiveRecovery <==> !d.completed && d.isRestDay
  {
    if d.completed then Done else if !d.isRestDay then StartButton else ActiveRecovery
  }

  /** The title of a day card. */
  function DayTitle(d: DailyPlan): (r: string)
    ensures d.isRestDay ==> r == "Rest & Recover"
    ensures !d.isRestDay ==> r == d.focus
  {
    if d.isRestDay then "Rest & Recover" else d.focus
  }

  /** The weekly-plan widget: hidden unless the profile asks for AI
      coaching; then either the invitation to generate a plan or one card
      per day of the plan. */
  datatype PlanWidget = Hidden | NoPlanYet | PlanDays(cards: seq<DayCard>)

  function ShowPlanWidget(profile: Option<UserProfile>, plan: Option<WeeklyPlan>): (w: PlanWidget)
    ensures w == Hidden <==> profile == None || !profile.value.aiCoaching
    ensures w == NoPlanYet <==> profile.Some? && profile.value.aiCoaching && plan == None
    ensures w.PlanDays? ==>
      && plan.Some? && |w.cards| == |plan.value.days|
      && forall i :: 0 <= i < |w.cards| ==> w.cards[i] == DayCardStatus(plan.value.days[i])
  {
    if profile == None || !profile.value.aiCoaching then Hidden
    else if plan == None then NoPlanYet
    else
      var days := plan.value.days;
      PlanDays(seq(|days|, i requires 0 <= i < |days| => DayCardStatus(days[i])))
  }

  /** The "Create Plan" link beside the widget's title. */
  predicate CreatePlanShown(profile: Option<UserProfile>, plan: Option<WeeklyPlan>) {
    profile.Some? && profile.value.aiCoaching && plan == None
  }

  /** Once a day is marked complete, its card says Done and no card loses
      its Done. */
  lemma MarkedDayShowsDone(profile: UserProfile, plan: WeeklyPlan, dayName: string)
    requires profile.aiCoaching
    ensures var w := ShowPlanWidget(Some(profile), Some(Storage.MarkDay(plan, dayName)));
      && w.PlanDays? && |w.cards| == |plan.days|
      && (forall i :: 0 <= i < |plan.days| && plan.days[i].day == dayName ==> w.cards[i] == Done)
      && (forall i :: 0 <= i < |plan.days| && plan.days[i].completed ==> w.cards[i] == Done)
  {
  }
}

=== FILE: gemini.dfy ===
/** The AI coaching calls, with the model itself abstracted away: whether
    an API key is configured is a parameter, and what the model answers
    (or that the call threw) is a parameter too. The prompts are not
    modelled; what is modelled is how each answer becomes the value the
    app shows. */
module Gemini {
  import opened Types
  import opened Text

  const NoKeyMessage: string := "Please configure your API Key to receive AI coaching insights."
  const NoSessionsMessage: string := "Complete your first session to get personalized insights!"
  const NoInsightMessage: string := "Could not generate insights at this time."
  const UnavailableMessage: string := "AI Service temporarily unavailable."

  /** What the insight call gave back: the response text (possibly empty),
      or an exception. */
  datatype InsightReply = InsightText(text: string) | InsightFailed

  /** `getTrainingInsights`: without a key, and without sessions, a fixed
      hint; otherwise the model's text, with fixed messages for an empty
      answer and for a failed call. The result is never empty. */
  function TrainingInsights(hasKey: bool, recent: seq<Session>, reply: InsightReply): (r: string)
    ensures r != []
    ensures !hasKey ==> r == NoKeyMessage
    ensures hasKey && recent == [] ==> r == NoSessionsMessage
    ensures hasKey && recent != [] ==>
      match reply
      case InsightFailed => r == UnavailableMessage
      case InsightText(t) => r == (if t == [] then NoInsightMessage else t)
  {
    if !hasKey then NoKeyMessage
    else if |recent| == 0 then NoSessionsMessage
    else match reply
      case InsightFailed => UnavailableMessage
      case InsightText(t) => if t == [] then NoInsightMessage else t
  }

  /** Whenever the shown insight is none of the fixed messages, it is the
      model's own answer to a real request about real sessions. */
  lemma InsightIsModelText(hasKey: bool, recent: seq<Session>, reply: InsightReply)
    requires var r := TrainingInsights(hasKey, recent, reply);
      r != NoKeyMessage && r != NoSessionsMessage && r != NoInsightMessage && r != UnavailableMessage
    ensures hasKey && recent != [] && reply == InsightText(TrainingInsights(hasKey, recent, reply))
  {
  }

  /** One routine as the model's JSON describes it; the response schema
      restricts its type to the four non-custom kinds. */
  datatype RawRoutine = RawRoutine(name: string, sessionType: SessionType, description: string, defaultExercises: seq<string>)

  /** What the routine call gave back: a parsed JSON array, an empty
      response text (read as `"[]"`), text that is not a JSON array, or an
      exception. */
  datatype RoutineReply = RoutineJson(items: seq<RawRoutine>) | EmptyReply | MalformedReply | RoutineCallFailed

  const FallbackExercises: seq<string> := ["Burpees", "Running", "Push-ups", "Squats"]

  /** The single routine offered when there is no key or the call fails. */
  function FallbackRoutines(sport: string): (r: seq<Template>)
    ensures |r| == 1 && r[0].id == "fallback-1" && r[0].sessionType == Performance
    ensures r[0].name == sport + " Conditioning"
    ensures r[0].description == "General conditioning for " + sport + "."
    ensures r[0].defaultExercises == FallbackExercises && r[0].detailedExercises == None
  {
    [Template("fallback-1", sport + " Conditioning", Performance, "General conditioning for " + sport + ".", FallbackExercises, None)]
  }

  /** `sport.toLowerCase().replace(/\s/g, '-')`: same length, each
      whitespace character becomes a dash, letters are lower-cased. */
  function Slug(sport: string): (r: string)
    ensures |r| == |sport|
    ensures forall i :: 0 <= i < |sport| ==> r[i] == if IsSpace(sport[i]) then '-' else LowerChar(sport[i])
    ensures forall i :: 0 <= i < |r| ==> !IsSpace(r[i]) && !IsUpper(r[i])
  {
    seq(|sport|, i requires 0 <= i < |sport| => if IsSpace(sport[i]) then '-' else LowerChar(sport[i]))
  }

  /** The id given to the `index`-th generated routine. */
  function RoutineId(sport: string, index: nat): (r: string)
    ensures IsPrefix(Slug(sport) + "-", r)
    ensures r[|Slug(sport)| + 1..] == NatToString(index)
  {
    var p := Slug(sport) + "-";
    assert (p + NatToString(index))[..|p|] == p;
    p + NatToString(index)
  }

  /** Different positions get different ids, so the list's React keys are
      unique for one sport. */
  lemma RoutineIdsDistinct(sport: string, i: nat, j: nat)
    ensures RoutineId(sport, i) == RoutineId(sport, j) <==> i == j
  {
    NatToStringInjective(i, j);
  }

  /** A generated routine as the app keeps it. */
  function ToTemplate(sport: string, index: nat, raw: RawRoutine): (t: Template)
    ensures t.id == RoutineId(sport, index)
    ensures t.name == raw.name && t.sessionType == raw.sessionType && t.description == raw.description
    ensures t.defaultExercises == raw.defaultExercises && t.detailedExercises == None
  {
    Template(RoutineId(sport, index), raw.name, raw.sessionType, raw.description, raw.defaultExercises, None)
  }

  /** `generateSportRoutines`: without a key, on an exception or on text
      that is not an array, the fallback; on an empty answer, no routines
      at all; otherwise one template per item, in order, with ids numbered
      from 0. */
  function SportRoutines(hasKey: bool, sport: string, reply: RoutineReply): (r: seq<Template>)
    ensures !hasKey || reply.MalformedReply? || reply.RoutineCallFailed? ==> r == FallbackRoutines(sport)
    ensures hasKey && reply.EmptyReply? ==> r == []
    ensures hasKey && reply.RoutineJson? ==>
      && |r| == |reply.items|
      && (forall i :: 0 <= i < |r| ==> r[i] == ToTemplate(sport, i, reply.items[i]))
      && (forall i, j :: 0 <= i < j < |r| ==> r[i].id != r[j].id)
  {
    if !hasKey then FallbackRoutines(sport)
    else match reply
      case RoutineJson(items) =>
        var r := seq(|items|, i requires 0 <= i < |items| => ToTemplate(sport, i, items[i]));
        assert forall i, j :: 0 <= i < j < |r| ==> r[i].id != r[j].id by {
          forall i, j | 0 <= i < j < |r|
            ensures r[i].id != r[j].id
          {
            RoutineIdsDistinct(sport, i, j);
          }
        }
        r
      case EmptyReply => []
      case MalformedReply => FallbackRoutines(sport)
      case RoutineCallFailed => FallbackRoutines(sport)
  }
}

=== FILE: new_session.dfy ===
/** The "new session" screen: first a sport picker (search box, popular
    sports, a free-text choice), then the list of routines generated for
    the chosen sport plus an empty custom session. Changing the sport is
    reported to the app, which owns the profile; loading the routines is
    the screen's effect, run as one step by `LoadRoutines`. */
module NewSession {
  import opened Types
  import opened Text
  import opened Seqs
  import Gemini
  import ActiveSession

  const CommonSports: seq<string> :=
    ["Padel", "Tennis", "Pickleball", "CrossFit", "Running", "Basketball", "Football", "Golf", "Boxing"]

  function Matches(term: string): string -> bool {
    (s: string) => Includes(Lower(s), Lower(term))
  }

  /** The popular sports listed under the search box: those whose
      lower-cased name contains the lower-cased search term, in the list's order. */
  function FilterSports(term: string): (r: seq<string>)
    ensures forall s :: s in r <==> s in CommonSports && Includes(Lower(s), Lower(term))
    ensures IsSubseq(r, CommonSports)
    ensures forall s {:trigger multiset(r)[s]} :: multiset(r)[s] == if Includes(Lower(s), Lower(term)) then multiset(CommonSports)[s] else 0
    ensures |r| <= |CommonSports|
  {
    FilterByTerm(CommonSports, term);
    Filter(CommonSports, Matches(term))
  }

  /** Filtering any list of sports by a search term keeps exactly the
      sports that contain the term ignoring case, in the list's order and
      as often as the list has them. */
  lemma FilterByTerm(sports: seq<string>, term: string)
    ensures var r := Filter(sports, Matches(term));
      && (forall s :: s in r <==> s in sports && Includes(Lower(s), Lower(term)))
      && IsSubseq(r, sports)
      && (forall s {:trigger multiset(r)[s]} :: multiset(r)[s] == if Includes(Lower(s), Lower(term)) then multiset(sports)[s] else 0)
      && |r| <= |sports|
  {
  }

  /** An empty search lists all nine sports in order. */
  lemma EmptySearchListsAll()
    ensures FilterSports("") == CommonSports
  {
    forall i | 0 <= i < |CommonSports|
      ensures Matches("")(CommonSports[i])
    {
      assert IsPrefix(Lower(""), Lower(CommonSports[i]));
    }
    FilterKeepsAll(CommonSports, Matches(""));
  }

  /** Whether the `Select "<term>"` button is offered: the term is
      non-empty and is not, ignoring case, one of the popular sports. */
  predicate ShowCustomOption(term: string)
    ensures ShowCustomOption(term) ==> term !in CommonSports
  {
    term != [] && NoCaselessMatch(CommonSports, term)
  }

  /** No entry of `sports` equals `term` ignoring case. */
  predicate NoCaselessMatch(sports: seq<string>, term: string) {
    forall i :: 0 <= i < |sports| ==> Lower(sports[i]) != Lower(term)
  }

  /** An exact caseless match always passes the search filter, so there
      is none in a list exactly when there is none among the filtered
      entries. */
  lemma NoCaselessMatchIffNoneListed(sports: seq<string>, term: string)
    ensures NoCaselessMatch(sports, term) <==> forall s :: s in Filter(sports, Matches(term)) ==> Lower(s) != Lower(term)
  {
    if !NoCaselessMatch(sports, term) {
      var i :| 0 <= i < |sports| && Lower(sports[i]) == Lower(term);
      var sport := sports[i];
      assert IsPrefix(Lower(term), Lower(sport));
      assert Matches(term)(sport);
      assert sport in Filter(sports, Matches(term));
    }
  }

  /** The screen's own state. */
  datatype Picker = Picker(searchTerm: string, templates: seq<Template>, isSelectingSport: bool)

  /** JavaScript truthiness of the sport handed in: `null` and the empty
      string both count as no sport. */
  predicate HasSport(userSport: Option<string>) {
    userSport.Some? && userSport.value != []
  }

  /** The screen opens on the sport picker exactly when the user has no
      sport, or an empty one. */
  function InitPicker(userSport: Option<string>): (p: Picker)
    ensures p.isSelectingSport <==> userSport == None || userSport == Some([])
    ensures p.searchTerm == [] && p.templates == []
  {
    Picker([], [], !HasSport(userSport))
  }

  function TypeSearch(p: Picker, term: string): (r: Picker)
    ensures r.searchTerm == term && r.templates == p.templates && r.isSelectingSport == p.isSelectingSport
  {
    p.(searchTerm := term)
  }

  /** The result of choosing a sport: the new screen state and the sport
      handed to the app's `onUpdateSport`, if one was chosen. */
  datatype Choice = Choice(picker: Picker, chosen: Option<string>)

  /** `handleSelectSport`: reports the sport and leaves the picker. */
  function SelectSport(p: Picker, sport: string): (c: Choice)
    ensures c.chosen == Some(sport) && !c.picker.isSelectingSport
    ensures c.picker.searchTerm == p.searchTerm && c.picker.templates == p.templates
  {
    Choice(p.(isSelectingSport := false), Some(sport))
  }

  /** `handleSearchSubmit`: a blank search does nothing; otherwise the
      trimmed term is chosen. */
  function SearchSubmit(p: Picker): (c: Choice)
    ensures AllSpace(p.searchTerm) ==> c == Choice(p, None)
    ensures !AllSpace(p.searchTerm) ==>
      && c.chosen == Some(Trim(p.searchTerm)) && c.chosen.value != []
      && !c.picker.isSelectingSport
  {
    var t := Trim(p.searchTerm);
    if t == [] then Choice(p, None) else SelectSport(p, t)
  }

  /** The `Select "<term>"` button, shown only under `ShowCustomOption`:
      the term is chosen exactly as typed, without trimming. */
  function SelectTypedSport(p: Picker): (c: Choice)
    requires ShowCustomOption(p.searchTerm)
    ensures c.chosen == Some(p.searchTerm) && !c.picker.isSelectingSport
  {
    SelectSport(p, p.searchTerm)
  }

  /** Submitting and pressing the button can choose different strings for
      the same search text: the button keeps surrounding spaces. */
  lemma SubmitAndButtonDiffer()
    ensures ShowCustomOption(" Golf ")
    ensures SearchSubmit(Picker(" Golf ", [], true)).chosen == Some("Golf")
    ensures SelectTypedSport(Picker(" Golf ", [], true)).chosen == Some(" Golf ")
  {
    var t := " Golf ";
    assert Lower(t)[0] == ' ';
    forall i | 0 <= i < |CommonSports|
      ensures Lower(CommonSports[i]) != Lower(t)
    {
      assert Lower(CommonSports[i])[0] != ' ';
    }
    assert LeadingSpaces(t, 0) == 1;
    assert TrailingEnd(t, |t|) == 5;
    assert Trim(t) == t[1..5] == "Golf";
  }

  /** For any search text the button is offered for, submitting the form
      and pressing the button choose the same sport exactly when the text
      has no whitespace at either end; otherwise submitting trims it, or
      does nothing when the text is blank. */
  lemma SubmitAgreesWithButtonIffTrimmed(p: Picker)
    requires ShowCustomOption(p.searchTerm)
    ensures var t := p.searchTerm;
      SearchSubmit(p).chosen == SelectTypedSport(p).chosen <==> !IsSpace(t[0]) && !IsSpace(t[|t| - 1])
  {
    var t := p.searchTerm;
    if !IsSpace(t[0]) && !IsSpace(t[|t| - 1]) {
      assert LeadingSpaces(t, 0) == 0;
      assert Trim(t) == t;
    }
  }

  /** The `Select "<term>"` button is offered exactly when the term is
      non-empty and none of the sports listed for it is, ignoring case,
      the term itself. */
  lemma CustomOptionIffNoListedMatch(term: string)
    ensures ShowCustomOption(term) <==>
      term != [] && forall s :: s in FilterSports(term) ==> Lower(s) != Lower(term)
  {
    NoCaselessMatchIffNoneListed(CommonSports, term);
  }

  /** The sport name button in the routines header: back to the picker. */
  function ChangeSport(p: Picker): (r: Picker)
    ensures r.isSelectingSport && r.searchTerm == p.searchTerm && r.templates == p.templates
  {
    p.(isSelectingSport := true)
  }

  /** The screen's effect: once the user has a sport and the picker is
      closed, the routines for that sport are generated and listed. */
  function LoadRoutines(p: Picker, userSport: Option<string>, hasKey: bool, reply: Gemini.RoutineReply): (r: Picker)
    ensures userSport.Some? && userSport.value != [] && !p.isSelectingSport ==>
      r == p.(templates := Gemini.SportRoutines(hasKey, userSport.value, reply))
    ensures userSport == None || userSport == Some([]) || p.isSelectingSport ==> r == p
  {
    if HasSport(userSport) && !p.isSelectingSport then p.(templates := Gemini.SportRoutines(hasKey, userSport.value, reply))
    else p
  }

  /** On first showing, an empty sport behaves like none: the picker is
      open and no routines are loaded. */
  lemma EmptySportOpensPicker(hasKey: bool, reply: Gemini.RoutineReply)
    ensures InitPicker(Some([])) == InitPicker(None)
    ensures var p := InitPicker(Some([]));
      p.isSelectingSport && LoadRoutines(p, Some([]), hasKey, reply) == p
  {
  }

  /** The "Create Empty Session" button's template. */
  const CustomTemplate: Template :=
    Template("custom", "Custom Session", Custom, "Build your own workout from scratch.", [], None)

  /** The empty session starts with no exercises and, finished, records a
      custom session that is not a circuit. */
  lemma CustomSessionStartsEmpty(sessionId: string, startedAt: int)
    ensures CustomTemplate.id == "custom" && CustomTemplate.sessionType == Custom
    ensures var ed := ActiveSession.Start(CustomTemplate, [], []);
      var s := ActiveSession.Finish(ed, CustomTemplate, sessionId, startedAt);
      && ed.exercises == [] && ed.elapsedSeconds == 0
      && s.exercises == [] && s.durationMinutes == 0
      && ParseSessionType(s.sessionType) == Some(Custom) && s.isCircuit == Some(false)
  {
  }

  /** Without an API key, any chosen non-empty sport lists exactly one
      routine named after it; an empty one loads nothing. */
  lemma NoKeyListsFallback(p: Picker, sport: string, reply: Gemini.RoutineReply)
    ensures var q := SelectSport(p, sport).picker;
      var loaded := LoadRoutines(q, Some(sport), false, reply);
      && (sport != [] ==> |loaded.templates| == 1 && loaded.templates[0].name == sport + " Conditioning")
      && (sport == [] ==> loaded == q)
  {
  }
}

=== FILE: profile_wizard.dfy ===
/** The three-step athlete profile form. Step 1 asks for name, sport, age
    and experience; step 2 for goals and injuries; step 3 for weekly
    frequency, and submits. Every event is something the screen can
    actually do at its current step: an input or button that is not on
    screen does nothing. */
module ProfileWizard {
  import opened Types

  /** The form as shown to a user without a profile. */
  const DefaultProfile: UserProfile := UserProfile("", 25, "", Intermediate, "", "", 3, true)

  datatype Wizard = Wizard(step: int, profile: UserProfile)

  /** The form opens on step 1, pre-filled with the existing profile if any. */
  function Init(existing: Option<UserProfile>): (w: Wizard)
    ensures w.step == 1
    ensures existing.Some? ==> w.profile == existing.value
    ensures existing == None ==> w.profile == DefaultProfile
  {
    Wizard(1, if existing.Some? then existing.value else DefaultProfile)
  }

  /** An edit of one field, carrying the new value. The age input's
      `parseInt` result is the number carried. */
  datatype Change =
    | SetName(name: string)
    | SetSport(sport: string)
    | SetAge(age: int)
    | SetExperience(level: ExperienceLevel)
    | SetGoals(goals: string)
    | SetInjuries(injuries: string)
    | SetFrequency(frequency: int)

  /** The field a change writes. */
  datatype Field = NameField | SportField | AgeField | ExperienceField | GoalsField | InjuriesField | FrequencyField

  function FieldOf(c: Change): Field {
    match c
    case SetName(_) => NameField
    case SetSport(_) => SportField
    case SetAge(_) => AgeField
    case SetExperience(_) => ExperienceField
    case SetGoals(_) => GoalsField
    case SetInjuries(_) => InjuriesField
    case SetFrequency(_) => FrequencyField
  }

  /** `handleChange`: `{ ...prev, [field]: value }` — the edited field
      takes the new value and every other field is kept. */
  function HandleChange(p: UserProfile, c: Change): (r: UserProfile)
    ensures c.SetName? ==> r.name == c.name
    ensures c.SetSport? ==> r.sport == c.sport
    ensures c.SetAge? ==> r.age == c.age
    ensures c.SetExperience? ==> r.experienceLevel == c.level
    ensures c.SetGoals? ==> r.goals == c.goals
    ensures c.SetInjuries? ==> r.injuries == c.injuries
    ensures c.SetFrequency? ==> r.frequency == c.frequency
    ensures r.aiCoaching == p.aiCoaching
    ensures FieldOf(c) != NameField ==> r.name == p.name
    ensures FieldOf(c) != SportField ==> r.sport == p.sport
    ensures FieldOf(c) != AgeField ==> r.age == p.age
    ensures FieldOf(c) != ExperienceField ==> r.experienceLevel == p.experienceLevel
    ensures FieldOf(c) != GoalsField ==> r.goals == p.goals
    ensures FieldOf(c) != InjuriesField ==> r.injuries == p.injuries
    ensures FieldOf(c) != FrequencyField ==> r.frequency == p.frequency
  {
    match c
    case SetName(v) => p.(name := v)
    case SetSport(v) => p.(sport := v)
    case SetAge(v) => p.(age := v)
    case SetExperience(v) => p.(experienceLevel := v)
    case SetGoals(v) => p.(goals := v)
    case SetInjuries(v) => p.(injuries := v)
    case SetFrequency(v) => p.(frequency := v)
  }

  /** Edits of different fields can be made in either order. */
  lemma ChangesCommute(p: UserProfile, a: Change, b: Change)
    requires FieldOf(a) != FieldOf(b)
    ensures HandleChange(HandleChange(p, a), b) == HandleChange(HandleChange(p, b), a)
  {
  }

  /** A later edit of the same field replaces an earlier one. */
  lemma LastChangeWins(p: UserProfile, a: Change, b: Change)
    requires FieldOf(a) == FieldOf(b)
    ensures HandleChange(HandleChange(p, a), b) == HandleChange(p, b)
  {
  }

  /** Which fields have an input on which step. Frequency is set through
      its buttons only. */
  predicate EditableAt(step: int, f: Field) {
    || (step == 1 && f in {NameField, SportField, AgeField, ExperienceField})
    || (step == 2 && f in {GoalsField, InjuriesField})
  }

  /** The user's actions. `PickFrequency` is one of the buttons 1 to 7. */
  datatype Event = Edit(c: Change) | PickFrequency(n: int) | Next | Back | CreateProfile

  /** Step 1's Next button is disabled until name and sport are filled in. */
  predicate NextEnabled(w: Wizard) {
    (w.step == 1 && w.profile.name != [] && w.profile.sport != []) || w.step == 2
  }

  predicate BackShown(w: Wizard) {
    w.step == 2 || w.step == 3
  }

  /** The new form state, and the profile handed to `onComplete` when the
      event submitted it. */
  datatype Outcome = Outcome(wizard: Wizard, submitted: Option<UserProfile>)

  /** One event on the current screen: an edit reaches the profile only
      through an input shown on this step, a frequency button only on
      step 3 with a value from 1 to 7, an enabled Next or a shown Back
      moves one step, and Create Profile submits on step 3. */
  function Apply(w: Wizard, e: Event): (r: Outcome)
    ensures e.CreateProfile? && w.step == 3 <==> r.submitted.Some?
    ensures r.submitted.Some? ==> r.submitted.value == w.profile && r.wizard == w
    ensures r.wizard.step == w.step || (e.Next? && NextEnabled(w) && r.wizard.step == w.step + 1)
      || (e.Back? && BackShown(w) && r.wizard.step == w.step - 1)
    ensures r.wizard.profile.aiCoaching == w.profile.aiCoaching
    ensures e.Edit? ==> r.wizard.profile == if EditableAt(w.step, FieldOf(e.c)) then HandleChange(w.profile, e.c) else w.profile
    ensures e.PickFrequency? ==> r.wizard.profile == if w.step == 3 && 1 <= e.n <= 7 then w.profile.(frequency := e.n) else w.profile
    ensures !e.Edit? && !e.PickFrequency? ==> r.wizard.profile == w.profile
    ensures e.Next? && NextEnabled(w) ==> r.wizard.step == w.step + 1
    ensures e.Back? && BackShown(w) ==> r.wizard.step == w.step - 1
  {
    match e
    case Edit(c) =>
      if EditableAt(w.step, FieldOf(c)) then Outcome(w.(profile := HandleChange(w.profile, c)), None)
      else Outcome(w, None)
    case PickFrequency(n) =>
      if w.step == 3 && 1 <= n <= 7 then Outcome(w.(profile := w.profile.(frequency := n)), None)
      else Outcome(w, None)
    case Next =>
      if NextEnabled(w) then Outcome(w.(step := w.step + 1), None) else Outcome(w, None)
    case Back =>
      if BackShown(w) then Outcome(w.(step := w.step - 1), None) else Outcome(w, None)
    case CreateProfile =>
      if w.step == 3 then Outcome(w, Some(w.profile)) else Outcome(w, None)
  }

  /** A new user's form cannot leave step 1 as it opens: the default name
      and sport are empty, so Next is disabled and pressing it does nothing.
      The defaults are themselves a frequency in range with AI coaching on. */
  lemma DefaultFormBlocksNext()
    ensures Init(None).profile == DefaultProfile
    ensures !NextEnabled(Init(None)) && Apply(Init(None), Next) == Outcome(Init(None), None)
    ensures 1 <= DefaultProfile.frequency <= 7 && DefaultProfile.aiCoaching
  {
  }

  /** Back is the inverse of Next: on any valid form where Next is enabled,
      pressing Next and then Back gives back the same form, and on step 1,
      where no Back button is shown, Back does nothing. */
  lemma BackUndoesNext(w: Wizard)
    requires Valid(w)
    ensures NextEnabled(w) ==> BackShown(Apply(w, Next).wizard) && Apply(Apply(w, Next).wizard, Back).wizard == w
    ensures w.step == 1 ==> !BackShown(w) && Apply(w, Back) == Outcome(w, None)
    ensures w.step == 3 ==> !NextEnabled(w) && BackShown(w)
  {
  }

  /** What holds on every screen the form can show: the step is 1, 2 or 3,
      and past step 1 the name and sport are filled in. */
  predicate Valid(w: Wizard) {
    && 1 <= w.step <= 3
    && (w.step >= 2 ==> w.profile.name != [] && w.profile.sport != [])
  }

  lemma InitValid(existing: Option<UserProfile>)
    ensures Valid(Init(existing))
  {
  }

  /** Every event keeps the form valid, so a submitted profile always has a
      name and a sport. */
  lemma ApplyKeepsValid(w: Wizard, e: Event)
    requires Valid(w)
    ensures Valid(Apply(w, e).wizard)
    ensures Apply(w, e).submitted.Some? ==>
      Apply(w, e).submitted.value.name != [] && Apply(w, e).submitted.value.sport != []
  {
  }

  /** A run of events, and the last profile submitted during it. */
  function Run(w: Wizard, es: seq<Event>): (r: Outcome)
    decreases |es|
  {
    if |es| == 0 then Outcome(w, None)
    else
      var first := Apply(w, es[0]);
      var rest := Run(first.wizard, es[1..]);
      Outcome(rest.wizard, if rest.submitted.Some? then rest.submitted else first.submitted)
  }

  /** Whatever the user does, the form stays valid, any submitted profile
      has a name and a sport, and the AI-coaching choice (which the form
      never offers to change) is the one the form opened with. */
  lemma {:induction false} RunKeepsValid(w: Wizard, es: seq<Event>)
    requires Valid(w)
    ensures var r := Run(w, es);
      && Valid(r.wizard)
      && r.wizard.profile.aiCoaching == w.profile.aiCoaching
      && (r.submitted.Some? ==>
          r.submitted.value.name != [] && r.submitted.value.sport != []
          && r.submitted.value.aiCoaching == w.profile.aiCoaching)
    decreases |es|
  {
    if |es| > 0 {
      ApplyKeepsValid(w, es[0]);
      RunKeepsValid(Apply(w, es[0]).wizard, es[1..]);
    }
  }

  /** A frequency the form opened with in 1..7 stays in 1..7. */
  lemma {:induction false} RunKeepsFrequency(w: Wizard, es: seq<Event>)
    requires 1 <= w.profile.frequency <= 7
    ensures 1 <= Run(w, es).wizard.profile.frequency <= 7
    decreases |es|
  {
    if |es| > 0 {
      RunKeepsFrequency(Apply(w, es[0]).wizard, es[1..]);
    }
  }

  /** The shortest way through for a new user: type a name and a sport,
      go forward twice and submit; the defaults fill the rest. */
  lemma NewUserFastPath(name: string, sport: string)
    requires name != [] && sport != []
    ensures Run(Init(None), [Edit(SetName(name)), Edit(SetSport(sport)), Next, Next, CreateProfile]).submitted
      == Some(UserProfile(name, 25, sport, Intermediate, "", "", 3, true))
  {
    var es := [Edit(SetName(name)), Edit(SetSport(sport)), Next, Next, CreateProfile];
    var w0 := Init(None);
    var w1 := Apply(w0, es[0]).wizard;
    var w2 := Apply(w1, es[1]).wizard;
    var w3 := Apply(w2, es[2]).wizard;
    var w4 := Apply(w3, es[3]).wizard;
    assert w4.step == 3 && w4.profile == UserProfile(name, 25, sport, Intermediate, "", "", 3, true);
    assert Run(w4, [CreateProfile]).submitted == Some(w4.profile) by {
      assert [CreateProfile][1..] == [];
    }
    assert es[1..][1..][1..][1..] == [CreateProfile];
    assert Run(w3, [Next, CreateProfile]).submitted == Some(w4.profile) by {
      assert [Next, CreateProfile][1..] == [CreateProfile];
    }
    assert Run(w2, [Next, Next, CreateProfile]).submitted == Some(w4.profile) by {
      assert [Next, Next, CreateProfile][1..] == [Next, CreateProfile];
    }
    assert Run(w1, es[1..]).submitted == Some(w4.profile) by {
      assert es[1..][1..] == [Next, Next, CreateProfile];
    }
  }
}

=== FILE: seqs.dfy ===
/** The two array idioms the application uses everywhere: `Array.prototype.filter`
    and `Array.prototype.find`, with the facts that pin them down. */
module Seqs {

  function Last<T>(s: seq<T>): T
    requires |s| > 0
  {
    s[|s| - 1]
  }

  /** `a` is `b` with some elements left out: the elements of `a` occur in
      `b` in the same order. */
  predicate IsSubseq<T(==)>(a: seq<T>, b: seq<T>)
    decreases |b|
  {
    |a| == 0 || (|b| > 0 && ((a[0] == b[0] && IsSubseq(a[1..], b[1..])) || IsSubseq(a, b[1..])))
  }

  /** `s.filter(keep)`: the elements satisfying `keep`, in their original
      order and each as often as it occurs in `s`. */
  function Filter<T(==,!new)>(s: seq<T>, keep: T -> bool): (r: seq<T>)
    ensures |r| <= |s|
    ensures forall x :: x in r <==> x in s && keep(x)
    ensures IsSubseq(r, s)
    ensures forall x {:trigger multiset(r)[x]} :: multiset(r)[x] == if keep(x) then multiset(s)[x] else 0
    decreases |s|
  {
    if |s| == 0 then [] else
      var rest := Filter(s[1..], keep);
      assert s == [s[0]] + s[1..];
      if keep(s[0]) then
        assert ([s[0]] + rest)[1..] == rest;
        [s[0]] + rest
      else
        rest
  }

  /** A subsequence never holds an element more often than the whole. */
  lemma {:induction false} SubseqMultiset<T>(a: seq<T>, b: seq<T>)
    requires IsSubseq(a, b)
    ensures multiset(a) <= multiset(b)
    decreases |b|
  {
    if |a| > 0 {
      assert b == [b[0]] + b[1..];
      if a[0] == b[0] && IsSubseq(a[1..], b[1..]) {
        SubseqMultiset(a[1..], b[1..]);
        assert a == [a[0]] + a[1..];
      } else {
        SubseqMultiset(a, b[1..]);
      }
    }
  }

  /** The two facts `Filter` promises pin it down: a subsequence of `s`
      holding every kept element as often as `s` does, and nothing else,
      is `Filter(s, keep)`. */
  lemma {:induction false} FilterUnique<T(!new)>(r: seq<T>, s: seq<T>, keep: T -> bool)
    requires IsSubseq(r, s)
    requires forall x :: multiset(r)[x] == if keep(x) then multiset(s)[x] else 0
    ensures r == Filter(s, keep)
    decreases |s|
  {
    if |s| > 0 {
      var h, t := s[0], s[1..];
      assert s == [h] + t;
      if keep(h) {
        assert multiset(r)[h] == multiset(t)[h] + 1;
        if !(|r| > 0 && r[0] == h && IsSubseq(r[1..], t)) {
          SubseqMultiset(r, t);
          assert false;
        }
        assert r == [h] + r[1..];
        FilterUnique(r[1..], t, keep);
      } else {
        assert multiset(r)[h] == 0;
        if |r| > 0 {
          assert r[0] in multiset(r);
          assert IsSubseq(r, t);
        }
        FilterUnique(r, t, keep);
      }
    }
  }

  /** Filtering distributes over concatenation, so the order of the kept
      elements is the order of the input. */
  lemma {:induction false} FilterAppend<T(!new)>(a: seq<T>, b: seq<T>, keep: T -> bool)
    ensures Filter(a + b, keep) == Filter(a, keep) + Filter(b, keep)
    decreases |a|
  {
    if |a| > 0 {
      assert (a + b)[1..] == a[1..] + b;
      FilterAppend(a[1..], b, keep);
    } else {
      assert a + b == b;
    }
  }

  /** When every element is kept, filtering changes nothing. */
  lemma {:induction false} FilterKeepsAll<T(!new)>(s: seq<T>, keep: T -> bool)
    requires forall i :: 0 <= i < |s| ==> keep(s[i])
    ensures Filter(s, keep) == s
    decreases |s|
  {
    if |s| > 0 {
      FilterKeepsAll(s[1..], keep);
      assert [s[0]] + s[1..] == s;
    }
  }

  /** Filtering out an element appended to a list that is kept whole gives
      the list back. */
  lemma FilterDropsAppended<T(!new)>(a: seq<T>, x: T, keep: T -> bool)
    requires forall i :: 0 <= i < |a| ==> keep(a[i])
    requires !keep(x)
    ensures Filter(a + [x], keep) == a
  {
    FilterAppend(a, [x], keep);
    FilterKeepsAll(a, keep);
    assert Filter([x], keep) == [];
  }

  /** `s.findIndex(p)`, with "not found" reported as `|s|`: the first
      position whose element satisfies `p`. */
  function FindFirst<T>(s: seq<T>, p: T -> bool): (k: nat)
    ensures k <= |s|
    ensures forall j :: 0 <= j < k ==> !p(s[j])
    ensures k < |s| ==> p(s[k])
    decreases |s|
  {
    if |s| == 0 then 0 else if p(s[0]) then 0 else 1 + FindFirst(s[1..], p)
  }
}

=== FILE: storage.dfy ===
/** The persistence layer: three independent keys of the browser's
    key-value store, holding the session history (newest first), the user
    profile and the weekly plan. A key may be missing, hold text that does
    not parse, or hold a value. Reads never fail: missing or unparseable
    data reads as the empty default. */
module Storage {
  import opened Types

  /** What a key of the store holds. A value of the wrong shape for its
      key counts as unparseable. */
  datatype Entry =
    | Unparseable
    | SessionsEntry(sessions: seq<Session>)
    | ProfileEntry(profile: UserProfile)
    | PlanEntry(plan: WeeklyPlan)

  /** The store; a key not in the map is missing. */
  type Store = map<string, Entry>

  const SessionsKey: string := "jellyfit_sessions"
  const ProfileKey: string := "jellyfit_profile"
  const PlanKey: string := "jellyfit_weekly_plan"

  /** The three keys are distinct, so each record has its own slot. */
  lemma KeysDistinct()
    ensures SessionsKey != ProfileKey && SessionsKey != PlanKey && ProfileKey != PlanKey
  {
    assert SessionsKey[9] == 's' && ProfileKey[9] == 'p' && PlanKey[9] == 'w';
  }

  /** Every key other than `key` is as it was. */
  ghost predicate OnlyKeyChanged(before: Store, after: Store, key: string) {
    forall k :: k != key ==> (k in before <==> k in after) && (k in before ==> before[k] == after[k])
  }

  /** `getSessions`: the stored list, or `[]` when the key is missing or
      its value does not parse. */
  function GetSessions(st: Store): (r: seq<Session>)
    ensures SessionsKey !in st || !st[SessionsKey].SessionsEntry? ==> r == []
    ensures r != [] ==> st[SessionsKey] == SessionsEntry(r)
  {
    if SessionsKey in st && st[SessionsKey].SessionsEntry? then st[SessionsKey].sessions else []
  }

  /** What `saveSession` leaves behind and returns. */
  datatype SaveResult = SaveResult(store: Store, sessions: seq<Session>)

  /** `saveSession`: prepends the session to the stored history, writes it
      back and returns it. When the write fails the store is unchanged and
      the result is `[]`. */
  function SaveSession(st: Store, s: Session, writeSucceeds: bool): (r: SaveResult)
    ensures writeSucceeds ==>
      && r.sessions == [s] + GetSessions(st)
      && GetSessions(r.store) == r.sessions
      && OnlyKeyChanged(st, r.store, SessionsKey)
    ensures !writeSucceeds ==> r.sessions == [] && r.store == st
  {
    if writeSucceeds then
      var updated := [s] + GetSessions(st);
      SaveResult(st[SessionsKey := SessionsEntry(updated)], updated)
    else SaveResult(st, [])
  }

  /** A successful save grows the history by one, puts the new session
      first and keeps the earlier ones in their order after it. */
  lemma SaveSessionPrepends(st: Store, s: Session)
    ensures var r := SaveSession(st, s, true);
      && |GetSessions(r.store)| == |GetSessions(st)| + 1
      && GetSessions(r.store)[0] == s
      && GetSessions(r.store)[1..] == GetSessions(st)
  {
  }

  /** `getUserProfile`: the stored profile, or null when missing or unparseable. */
  function GetUserProfile(st: Store): (r: Option<UserProfile>)
    ensures ProfileKey !in st || !st[ProfileKey].ProfileEntry? ==> r == None
    ensures r.Some? ==> st[ProfileKey] == ProfileEntry(r.value)
  {
    if ProfileKey in st && st[ProfileKey].ProfileEntry? then Some(st[ProfileKey].profile) else None
  }

  /** `saveUserProfile`: overwrites the profile key and no other; reading
      it back gives the profile saved. */
  function SaveUserProfile(st: Store, p: UserProfile): (r: Store)
    ensures GetUserProfile(r) == Some(p)
    ensures OnlyKeyChanged(st, r, ProfileKey)
  {
    st[ProfileKey := ProfileEntry(p)]
  }

  /** `getWeeklyPlan`: the stored plan, or null when missing or unparseable. */
  function GetWeeklyPlan(st: Store): (r: Option<WeeklyPlan>)
    ensures PlanKey !in st || !st[PlanKey].PlanEntry? ==> r == None
    ensures r.Some? ==> st[PlanKey] == PlanEntry(r.value)
  {
    if PlanKey in st && st[PlanKey].PlanEntry? then Some(st[PlanKey].plan) else None
  }

  /** `saveWeeklyPlan`: overwrites the plan key and no other; reading it
      back gives the plan saved. */
  function SaveWeeklyPlan(st: Store, plan: WeeklyPlan): (r: Store)
    ensures GetWeeklyPlan(r) == Some(plan)
    ensures OnlyKeyChanged(st, r, PlanKey)
  {
    st[PlanKey := PlanEntry(plan)]
  }

  /** Saving under one key leaves what the other two getters read unchanged. */
  lemma SavesAreIndependent(st: Store, s: Session, ok: bool, p: UserProfile, plan: WeeklyPlan)
    ensures GetUserProfile(SaveSession(st, s, ok).store) == GetUserProfile(st)
    ensures GetWeeklyPlan(SaveSession(st, s, ok).store) == GetWeeklyPlan(st)
    ensures GetSessions(SaveUserProfile(st, p)) == GetSessions(st)
    ensures GetWeeklyPlan(SaveUserProfile(st, p)) == GetWeeklyPlan(st)
    ensures GetSessions(SaveWeeklyPlan(st, plan)) == GetSessions(st)
    ensures GetUserProfile(SaveWeeklyPlan(st, plan)) == GetUserProfile(st)
  {
    KeysDistinct();
  }

  /** The plan with every day named exactly `dayName` marked completed. */
  function MarkDay(plan: WeeklyPlan, dayName: string): (r: WeeklyPlan)
    ensures r.id == plan.id && r.weekStartDate == plan.weekStartDate && r.generatedAt == plan.generatedAt
    ensures |r.days| == |plan.days|
    ensures forall i :: 0 <= i < |r.days| ==>
      && r.days[i] == plan.days[i].(completed := r.days[i].completed)
      && (r.days[i].completed <==> plan.days[i].completed || plan.days[i].day == dayName)
  {
    var n := |plan.days|;
    plan.(days := seq(n, i requires 0 <= i < n =>
      if plan.days[i].day == dayName then plan.days[i].(completed := true) else plan.days[i]))
  }

  /** `markPlanDayComplete`: with no readable plan stored, nothing changes;
      otherwise the plan is rewritten with the named day marked and the
      other keys are untouched. */
  function MarkPlanDayComplete(st: Store, dayName: string): (r: Store)
    ensures GetWeeklyPlan(st) == None ==> r == st
    ensures GetWeeklyPlan(st).Some? ==>
      GetWeeklyPlan(r) == Some(MarkDay(GetWeeklyPlan(st).value, dayName)) && OnlyKeyChanged(st, r, PlanKey)
  {
    match GetWeeklyPlan(st)
    case None => st
    case Some(plan) => SaveWeeklyPlan(st, MarkDay(plan, dayName))
  }

  /** Marking the same day twice is the same as marking it once. */
  lemma MarkDayIdempotent(plan: WeeklyPlan, dayName: string)
    ensures MarkDay(MarkDay(plan, dayName), dayName) == MarkDay(plan, dayName)
  {
    var once := MarkDay(plan, dayName);
    var twice := MarkDay(once, dayName);
    assert twice.days == once.days;
  }

  /** Marking any day never clears a completed day, and every day named
      `dayName` ends up completed whether or not it is a rest day. */
  lemma MarkDayMonotone(plan: WeeklyPlan, dayName: string)
    ensures forall i :: 0 <= i < |plan.days| && plan.days[i].completed ==> MarkDay(plan, dayName).days[i].completed
    ensures forall i :: 0 <= i < |plan.days| && plan.days[i].day == dayName ==> MarkDay(plan, dayName).days[i].completed
  {
  }

  /** Marking the same day twice in the store is the same as marking it once. */
  lemma MarkPlanDayCompleteIdempotent(st: Store, dayName: string)
    ensures MarkPlanDayComplete(MarkPlanDayComplete(st, dayName), dayName) == MarkPlanDayComplete(st, dayName)
  {
    if GetWeeklyPlan(st).Some? {
      MarkDayIdempotent(GetWeeklyPlan(st).value, dayName);
    }
  }
}

=== FILE: text.dfy ===
/** The JavaScript string behaviour the application leans on: `trim`,
    ASCII `toLowerCase`, `includes`, `startsWith`, the `\s` whitespace class,
    `Number.prototype.toString` on whole numbers and `padStart(2, '0')`.
    Each operation comes with the property a caller relies on. */
module Text {

  /** Whitespace as `trim` and the regex class `\s` see it, restricted to ASCII:
      space, tab, line feed, carriage return, vertical tab and form feed. */
  predicate IsSpace(c: char) {
    c == ' ' || c == '\t' || c == '\n' || c == '\r' || c as int == 11 || c as int == 12
  }

  predicate AllSpace(s: string) {
    forall i :: 0 <= i < |s| ==> IsSpace(s[i])
  }

  /** The index of the first non-space character at or after `from`
      (or `|s|` when there is none). */
  function LeadingSpaces(s: string, from: nat): (k: nat)
    requires from <= |s|
    ensures from <= k <= |s|
    ensures forall i :: from <= i < k ==> IsSpace(s[i])
    ensures k < |s| ==> !IsSpace(s[k])
    decreases |s| - from
  {
    if from < |s| && IsSpace(s[from]) then LeadingSpaces(s, from + 1) else from
  }

  /** The index just past the last non-space character before `stop`
      (or 0 when there is none). */
  function TrailingEnd(s: string, stop: nat): (k: nat)
    requires stop <= |s|
    ensures k <= stop
    ensures forall i :: k <= i < stop ==> IsSpace(s[i])
    ensures k > 0 ==> !IsSpace(s[k - 1])
    decreases stop
  {
    if stop > 0 && IsSpace(s[stop - 1]) then TrailingEnd(s, stop - 1) else stop
  }

  /** `s.trim()`: the infix of `s` left after removing whitespace at both
      ends. It is empty exactly when `s` is blank. */
  function Trim(s: string): (r: string)
    ensures |r| <= |s|
    ensures r == [] <==> AllSpace(s)
    ensures r != [] ==> !IsSpace(r[0]) && !IsSpace(r[|r| - 1])
    ensures var k := LeadingSpaces(s, 0);
      && k + |r| <= |s| && r == s[k..k + |r|]
      && (forall i :: 0 <= i < k ==> IsSpace(s[i]))
      && (forall i :: k + |r| <= i < |s| ==> IsSpace(s[i]))
  {
    var a := LeadingSpaces(s, 0);
    var b := TrailingEnd(s, |s|);
    if a == |s| then
      assert s[0..0] == [];
      []
    else
      assert a < b;
      s[a..b]
  }

  /** Trimming is idempotent. */
  lemma TrimIdempotent(s: string)
    ensures Trim(Trim(s)) == Trim(s)
  {
    var t := Trim(s);
    if t != [] {
      assert LeadingSpaces(t, 0) == 0;
      assert TrailingEnd(t, |t|) == |t|;
      assert t[0..|t|] == t;
    }
  }

  predicate IsUpper(c: char) {
    'A' <= c <= 'Z'
  }

  function LowerChar(c: char): char {
    if IsUpper(c) then (c as int + 32) as char else c
  }

  /** `s.toLowerCase()` for ASCII letters; every other character is kept. */
  function Lower(s: string): (r: string)
    ensures |r| == |s|
    ensures forall i :: 0 <= i < |s| ==> r[i] == LowerChar(s[i])
    ensures forall i :: 0 <= i < |r| ==> !IsUpper(r[i])
  {
    seq(|s|, i requires 0 <= i < |s| => LowerChar(s[i]))
  }

  /** Lower-casing twice is lower-casing once. */
  lemma LowerIdempotent(s: string)
    ensures Lower(Lower(s)) == Lower(s)
  {
  }

  /** `s.startsWith(p)`. */
  predicate IsPrefix(p: string, s: string) {
    |p| <= |s| && s[..|p|] == p
  }

  /** `s.includes(p)`: a recursive reference definition that tries every
      starting offset from the left. The empty string is included in every string. */
  predicate Includes(s: string, p: string)
    decreases |s|
  {
    IsPrefix(p, s) || (|s| > 0 && Includes(s[1..], p))
  }

  /** `Includes` holds exactly when `p` occurs at some offset of `s`. */
  lemma {:induction false} IncludesAt(s: string, p: string)
    ensures Includes(s, p) <==> exists i :: 0 <= i <= |s| && IsPrefix(p, s[i..])
    decreases |s|
  {
    assert s[0..] == s;
    if |s| > 0 {
      IncludesAt(s[1..], p);
      if Includes(s[1..], p) {
        var j :| 0 <= j <= |s[1..]| && IsPrefix(p, s[1..][j..]);
        assert s[1..][j..] == s[j + 1..];
      }
      if exists i :: 0 <= i <= |s| && IsPrefix(p, s[i..]) {
        var i :| 0 <= i <= |s| && IsPrefix(p, s[i..]);
        if i > 0 {
          assert s[1..][i - 1..] == s[i..];
        }
      }
    }
  }

  predicate IsDigit(c: char) {
    '0' <= c <= '9'
  }

  predicate AllDigits(s: string) {
    forall i :: 0 <= i < |s| ==> IsDigit(s[i])
  }

  function DigitChar(d: nat): (c: char)
    requires d < 10
    ensures IsDigit(c) && c as int - '0' as int == d
  {
    (d + '0' as int) as char
  }

  /** The value of one decimal digit; any other character reads as 0. */
  function DigitValue(c: char): nat {
    if IsDigit(c) then c as int - '0' as int else 0
  }

  /** `n.toString()` for a whole number: its decimal digits, most
      significant first, with no leading zero. */
  function NatToString(n: nat): (r: string)
    ensures |r| >= 1
    ensures forall i :: 0 <= i < |r| ==> IsDigit(r[i])
    ensures |r| > 1 ==> r[0] != '0'
    ensures n < 10 <==> |r| == 1
    decreases n
  {
    if n < 10 then [DigitChar(n)] else NatToString(n / 10) + [DigitChar(n % 10)]
  }

  /** Reads a run of decimal digits, most significant first; this is the
      inverse `NatToString` is checked against. */
  function DigitsValue(s: string): nat
    decreases |s|
  {
    if |s| == 0 then 0 else DigitsValue(s[..|s| - 1]) * 10 + DigitValue(s[|s| - 1])
  }

  /** Reading back the decimal rendering of `n` gives `n`. */
  lemma {:induction false} NatToStringRoundTrip(n: nat)
    ensures DigitsValue(NatToString(n)) == n
    decreases n
  {
    if n >= 10 {
      NatToStringRoundTrip(n / 10);
      var s := NatToString(n);
      assert s[..|s| - 1] == NatToString(n / 10);
    }
  }

  /** Distinct numbers render as distinct strings. */
  lemma NatToStringInjective(a: nat, b: nat)
    ensures NatToString(a) == NatToString(b) <==> a == b
  {
    NatToStringRoundTrip(a);
    NatToStringRoundTrip(b);
  }

  /** A leading zero does not change the value read. */
  lemma {:induction false} LeadingZero(s: string)
    ensures DigitsValue("0" + s) == DigitsValue(s)
    decreases |s|
  {
    if |s| > 0 {
      LeadingZero(s[..|s| - 1]);
      assert ("0" + s)[..|s|] == "0" + s[..|s| - 1];
    }
  }

  /** `s.padStart(2, '0')`: zeros in front up to two characters; longer
      strings are kept. Padding never changes the value read. */
  function PadStart2(s: string): (r: string)
    ensures |r| == if |s| >= 2 then |s| else 2
    ensures forall i :: 0 <= i < |r| - |s| ==> r[i] == '0'
    ensures r[|r| - |s|..] == s
    ensures DigitsValue(r) == DigitsValue(s)
  {
    if |s| >= 2 then s
    else if |s| == 1 then LeadingZero(s); "0" + s
    else assert DigitsValue("00") == 0; "00"
  }

  /** `n.toString().padStart(2, '0')`: decimal digits only, exactly two
      below 100 and no leading zero beyond those two, and it reads back as `n`. */
  function Pad2(n: nat): (r: string)
    ensures |r| >= 2 && AllDigits(r)
    ensures n < 100 ==> |r| == 2
    ensures |r| > 2 ==> r[0] != '0'
    ensures DigitsValue(r) == n
  {
    NatToStringRoundTrip(n);
    assert 10 <= n < 100 ==> |NatToString(n / 10)| == 1;
    PadStart2(NatToString(n))
  }
}

=== FILE: timer.dfy ===
/** The reusable timer widget: a countdown when it is created with a
    positive number of seconds, a stopwatch otherwise. One interval
    firing is one `Tick`; the completion callback is reported as a flag
    on the tick that fires it. */
module Timer {
  import opened Text

  datatype Mode = Countdown | Stopwatch

  datatype TimerState = TimerState(initialSeconds: nat, seconds: nat, isActive: bool, mode: Mode)

  /** What holds of every timer the widget can be in: the mode is fixed by
      the initial value, and a countdown never shows more than it started with. */
  predicate Valid(t: TimerState) {
    && (t.mode == Countdown <==> t.initialSeconds > 0)
    && (t.mode == Countdown ==> t.seconds <= t.initialSeconds)
  }

  /** Mounting the widget: it shows the initial value and runs when `autoStart`. */
  function Create(initialSeconds: nat, autoStart: bool): (t: TimerState)
    ensures Valid(t)
    ensures t.seconds == t.initialSeconds == initialSeconds && t.isActive == autoStart
    ensures t.mode == Countdown <==> initialSeconds > 0
  {
    TimerState(initialSeconds, initialSeconds, autoStart, if initialSeconds > 0 then Countdown else Stopwatch)
  }

  datatype TickResult = TickResult(state: TimerState, completed: bool)

  /** One interval firing. A stopped timer has no interval and is
      unchanged. A countdown at one second or less lands on zero, stops
      and reports completion; otherwise it counts down by one. A
      stopwatch counts up by one. */
  function Tick(t: TimerState): (r: TickResult)
    ensures Valid(t) ==> Valid(r.state)
    ensures r.state.initialSeconds == t.initialSeconds && r.state.mode == t.mode
    ensures !t.isActive ==> r.state == t && !r.completed
    ensures r.completed <==> t.isActive && t.mode == Countdown && t.seconds <= 1
    ensures r.state.isActive <==> t.isActive && !r.completed
    ensures t.isActive && t.mode == Countdown ==> r.state.seconds + 1 == t.seconds || (r.completed && r.state.seconds == 0)
    ensures t.isActive && t.mode == Stopwatch ==> r.state.seconds == t.seconds + 1
  {
    if !t.isActive then TickResult(t, false)
    else if t.mode == Countdown then
      if t.seconds <= 1 then TickResult(t.(seconds := 0, isActive := false), true)
      else TickResult(t.(seconds := t.seconds - 1), false)
    else TickResult(t.(seconds := t.seconds + 1), false)
  }

  /** The play/pause button. */
  function Toggle(t: TimerState): (r: TimerState)
    ensures Valid(t) ==> Valid(r)
    ensures r.isActive != t.isActive
    ensures r.(isActive := t.isActive) == t
  {
    t.(isActive := !t.isActive)
  }

  /** The reset button: stop and show the initial value again. */
  function Reset(t: TimerState): (r: TimerState)
    ensures Valid(r)
    ensures !r.isActive && r.seconds == t.initialSeconds
    ensures r.initialSeconds == t.initialSeconds
    ensures Valid(t) ==> r.mode == t.mode
  {
    TimerState(t.initialSeconds, t.initialSeconds, false, if t.initialSeconds > 0 then Countdown else Stopwatch)
  }

  /** Whatever happened since mounting, resetting gives back the widget as
      it was mounted without auto-start. */
  lemma ResetIsFreshTimer(t: TimerState)
    requires Valid(t)
    ensures Reset(t) == Create(t.initialSeconds, false)
  {
  }

  datatype RunResult = RunResult(state: TimerState, completions: nat)

  /** `n` interval firings, counting how often the completion callback ran. */
  function Run(t: TimerState, n: nat): (r: RunResult)
    decreases n
  {
    if n == 0 then RunResult(t, 0)
    else
      var prev := Run(t, n - 1);
      var step := Tick(prev.state);
      RunResult(step.state, prev.completions + if step.completed then 1 else 0)
  }

  /** A running countdown showing `k` seconds counts down one second per
      firing without completing, for every `n < k`. */
  lemma {:induction false} CountdownCountsDown(t: TimerState, n: nat)
    requires t.isActive && t.mode == Countdown && n < t.seconds
    ensures Run(t, n) == RunResult(t.(seconds := t.seconds - n), 0)
    decreases n
  {
    if n > 0 {
      CountdownCountsDown(t, n - 1);
    }
  }

  /** A running countdown showing `k >= 1` seconds reaches zero after
      exactly `k` firings, stops there and has completed exactly once. */
  lemma {:induction false} CountdownRunsOut(t: TimerState)
    requires t.isActive && t.mode == Countdown && t.seconds >= 1
    ensures Run(t, t.seconds) == RunResult(t.(seconds := 0, isActive := false), 1)
  {
    CountdownCountsDown(t, t.seconds - 1);
  }

  /** A running stopwatch shows exactly `n` seconds more after `n` firings. */
  lemma {:induction false} StopwatchCountsUp(t: TimerState, n: nat)
    requires t.isActive && t.mode == Stopwatch
    ensures Run(t, n) == RunResult(t.(seconds := t.seconds + n), 0)
    decreases n
  {
    if n > 0 {
      StopwatchCountsUp(t, n - 1);
    }
  }

  /** A stopped timer ignores the clock. */
  lemma {:induction false} StoppedTimerStaysPut(t: TimerState, n: nat)
    requires !t.isActive
    ensures Run(t, n) == RunResult(t, 0)
    decreases n
  {
    if n > 0 {
      StoppedTimerStaysPut(t, n - 1);
    }
  }

  /** A countdown that has run out and is started again completes again on
      its next firing and stays at zero. */
  lemma RestartedCountdownCompletesAgain(t: TimerState)
    requires t.mode == Countdown && t.seconds == 0 && !t.isActive
    ensures Tick(Toggle(t)) == TickResult(t, true)
  {
  }

  /** Hours, minutes within the hour and seconds within the minute. */
  function ClockFields(total: nat): (r: (nat, nat, nat))
    ensures r.1 < 60 && r.2 < 60
    ensures r.0 * 3600 + r.1 * 60 + r.2 == total
  {
    (total / 3600, (total % 3600) / 60, total % 60)
  }

  /** Reads a clock face back. A five-character face is `mm:ss`; a longer
      one is the hours, a colon, and a five-character face. */
  function ParseClock(r: string): nat
    requires |r| >= 5
    decreases |r|
  {
    if |r| <= 5 then DigitsValue(r[..2]) * 60 + DigitsValue(r[3..])
    else DigitsValue(r[..|r| - 6]) * 3600 + ParseClock(r[|r| - 5..])
  }

  /** The shape of a clock face: a two-digit minutes field, a colon and a
      two-digit seconds field at the end, and in front of them, when the
      face is longer, an hours field of digits and a colon. */
  predicate ClockShape(r: string) {
    && |r| >= 5 && r[|r| - 3] == ':'
    && AllDigits(r[|r| - 5..|r| - 3]) && AllDigits(r[|r| - 2..])
    && (|r| > 5 ==> |r| >= 7 && r[|r| - 6] == ':' && AllDigits(r[..|r| - 6]))
  }

  /** `mm:ss`: two zero-padded two-digit fields joined by a colon, reading
      back as the minutes and seconds they show. */
  function ShortFace(m: nat, sec: nat): (r: string)
    requires m < 60 && sec < 60
    ensures |r| == 5 && ClockShape(r)
    ensures DigitsValue(r[..2]) == m && DigitsValue(r[3..]) == sec
    ensures ParseClock(r) == m * 60 + sec
  {
    var mm, ss := Pad2(m), Pad2(sec);
    var r := mm + ":" + ss;
    assert r[..2] == mm;
    assert r[3..] == ss;
    r
  }

  /** Any hours field, a colon and a five-character face: the fields of the
      result are the hours field and the face's two fields, and it reads
      back as the hours' value in seconds plus what the face reads back as. */
  lemma JoinHours(hh: string, face: string)
    requires |hh| >= 1 && |face| == 5
    ensures var r := hh + ":" + face;
      && |r| >= 7 && r[|r| - 6] == ':' && r[..|r| - 6] == hh && r[|r| - 5..] == face
      && r[0] == hh[0] && r[|r| - 5..|r| - 3] == face[..2] && r[|r| - 2..] == face[3..]
      && ParseClock(r) == DigitsValue(hh) * 3600 + ParseClock(face)
      && (AllDigits(hh) && ClockShape(face) ==> ClockShape(r))
  {
    var r := hh + ":" + face;
    assert r[..|r| - 6] == hh;
    assert r[|r| - 5..] == face;
    assert r[|r| - 5..|r| - 3] == face[..2];
    assert r[|r| - 2..] == face[3..];
  }

  /** An `h:mm:ss` face showing `h` hours, `m` minutes and `sec` seconds:
      the clock shape with an hours field, each field reading back as its
      value, no leading zero in the hours field unless there are no hours,
      and the whole face reading back as the total in seconds. */
  predicate ShowsLong(r: string, h: nat, m: nat, sec: nat) {
    && |r| >= 7 && ClockShape(r)
    && DigitsValue(r[..|r| - 6]) == h
    && DigitsValue(r[|r| - 5..|r| - 3]) == m && DigitsValue(r[|r| - 2..]) == sec
    && (r[0] != '0' || h == 0)
    && ParseClock(r) == h * 3600 + m * 60 + sec
  }

  /** `h:mm:ss`: the hours in decimal, a colon, and the `mm:ss` face. */
  function LongFace(h: nat, m: nat, sec: nat): (r: string)
    requires m < 60 && sec < 60
    ensures ShowsLong(r, h, m, sec)
  {
    var hh, face := NatToString(h), ShortFace(m, sec);
    NatToStringRoundTrip(h);
    HoursLead(h);
    JoinFields(hh, face, h, m, sec);
    hh + ":" + face
  }

  /** An hours field reading `h`, joined by a colon to an `mm:ss` face
      reading `m` and `sec`, shows `h` hours, `m` minutes and `sec` seconds. */
  lemma JoinFields(hh: string, face: string, h: nat, m: nat, sec: nat)
    requires |hh| >= 1 && AllDigits(hh) && DigitsValue(hh) == h && (hh[0] != '0' || h == 0)
    requires |face| == 5 && ClockShape(face) && DigitsValue(face[..2]) == m && DigitsValue(face[3..]) == sec
    requires ParseClock(face) == m * 60 + sec
    ensures ShowsLong(hh + ":" + face, h, m, sec)
  {
    JoinHours(hh, face);
  }

  /** The hours field starts with '0' only when there are no hours. */
  lemma HoursLead(h: nat)
    ensures NatToString(h)[0] != '0' || h == 0
  {
    if h < 10 {
      assert NatToString(h) == [DigitChar(h)];
    }
  }

  /** `formatTime`: the five-character face exactly below an hour, a
      longer one from an hour on, whose hours field has no leading zero;
      zero-padded digits around the colons, minutes and seconds fields
      below 60, and reading the face back gives the total. */
  function FormatClock(total: nat): (r: string)
    ensures ClockShape(r) && ParseClock(r) == total
    ensures |r| == 5 <==> total < 3600
    ensures DigitsValue(r[|r| - 5..|r| - 3]) < 60 && DigitsValue(r[|r| - 2..]) < 60
    ensures |r| > 5 ==> r[0] != '0'
  {
    var f := ClockFields(total);
    if f.0 > 0 then LongFace(f.0, f.1, f.2)
    else
      var r := ShortFace(f.1, f.2);
      assert r[|r| - 5..|r| - 3] == r[..2];
      r
  }

  /** Distinct totals show distinct clock faces. */
  lemma FormatClockInjective(a: nat, b: nat)
    ensures FormatClock(a) == FormatClock(b) ==> a == b
  {
    if FormatClock(a) == FormatClock(b) {
      assert a == ParseClock(FormatClock(a)) == ParseClock(FormatClock(b)) == b;
    }
  }
}

=== FILE: tracker.dfy ===
/** The training log screen's summary cards. */
module Tracker {
  import opened Types
  import Dashboard
  import Storage

  /** Number of sessions, minutes trained, and the date of the newest
      session (`'N/A'` on screen when there is none). */
  datatype TrackerStats = TrackerStats(totalSessions: nat, totalMinutes: nat, lastSessionDate: Option<int>)

  function Stats(sessions: seq<Session>): (r: TrackerStats)
    ensures r.totalSessions == |sessions|
    ensures r.totalMinutes == Dashboard.TotalMinutes(sessions)
    ensures r.lastSessionDate == None <==> sessions == []
    ensures sessions != [] ==> r.lastSessionDate == Some(sessions[0].date)
  {
    TrackerStats(|sessions|, Dashboard.TotalMinutes(sessions), if |sessions| > 0 then Some(sessions[0].date) else None)
  }

  /** After a successful save, one more session is counted, its minutes
      are added, and it is the one whose date is shown. */
  lemma StatsAfterSave(st: Storage.Store, s: Session)
    ensures var before := Stats(Storage.GetSessions(st));
      var after := Stats(Storage.SaveSession(st, s, true).sessions);
      && after.totalSessions == before.totalSessions + 1
      && after.totalMinutes == before.totalMinutes + s.durationMinutes
      && after.lastSessionDate == Some(s.date)
  {
    Dashboard.TotalMinutesAppend([s], Storage.GetSessions(st));
    assert Dashboard.TotalMinutes([s]) == s.durationMinutes by {
      assert [s][1..] == [];
    }
  }
}

=== FILE: types.dfy ===
/** The data model of the workout logger: users, profiles, sets, exercises,
    sessions, weekly plans, templates and the names of the app's views.
    The TypeScript field `type` is a Dafny keyword and is called
    `sessionType` throughout. Optional fields (`?:`) and nullable fields
    (`| null`) are both `Option`. */
module Types {

  datatype Option<T> = None | Some(value: T)

  /** The closed set of session kinds. */
  datatype SessionType = Strength | Mobility | Performance | Circuit | Custom

  /** The string value each `SessionType` member stands for. */
  function SessionTypeName(t: SessionType): string {
    match t
    case Strength => "Strength"
    case Mobility => "Mobility"
    case Performance => "Performance"
    case Circuit => "Circuit"
    case Custom => "Custom"
  }

  /** Reads a session-type string back; `None` for any other string. */
  function ParseSessionType(s: string): (r: Option<SessionType>)
    ensures r.Some? ==> SessionTypeName(r.value) == s
  {
    if s == "Strength" then Some(Strength)
    else if s == "Mobility" then Some(Mobility)
    else if s == "Performance" then Some(Performance)
    else if s == "Circuit" then Some(Circuit)
    else if s == "Custom" then Some(Custom)
    else None
  }

  /** Every member's string value reads back as that member, so the five
      values are pairwise distinct. */
  lemma SessionTypeNameRoundTrip(t: SessionType)
    ensures ParseSessionType(SessionTypeName(t)) == Some(t)
  {
  }

  /** `'Beginner' | 'Intermediate' | 'Advanced'`. */
  datatype ExperienceLevel = Beginner | Intermediate | Advanced

  function ExperienceLevelName(l: ExperienceLevel): string {
    match l
    case Beginner => "Beginner"
    case Intermediate => "Intermediate"
    case Advanced => "Advanced"
  }

  /** Reads an experience level back; `None` for any other string. */
  function ParseExperienceLevel(s: string): (r: Option<ExperienceLevel>)
    ensures r.Some? ==> ExperienceLevelName(r.value) == s
  {
    if s == "Beginner" then Some(Beginner)
    else if s == "Intermediate" then Some(Intermediate)
    else if s == "Advanced" then Some(Advanced)
    else None
  }

  lemma ExperienceLevelRoundTrip(l: ExperienceLevel)
    ensures ParseExperienceLevel(ExperienceLevelName(l)) == Some(l)
  {
  }

  /** The ten views the app can show. */
  datatype ViewState =
    | AuthScreen | DashboardScreen | TrackerScreen | NewSessionScreen | ActiveSessionScreen
    | HistoryScreen | SessionDetailsScreen | ProfileWizardScreen | ChatScreen | ProfileScreen

  function ViewName(v: ViewState): string {
    match v
    case AuthScreen => "auth"
    case DashboardScreen => "dashboard"
    case TrackerScreen => "tracker"
    case NewSessionScreen => "new-session"
    case ActiveSessionScreen => "active-session"
    case HistoryScreen => "history"
    case SessionDetailsScreen => "session-details"
    case ProfileWizardScreen => "profile-wizard"
    case ChatScreen => "chat"
    case ProfileScreen => "profile"
  }

  /** Reads a view name back; `None` for any other string. */
  function ParseViewName(s: string): (r: Option<ViewState>)
    ensures r.Some? ==> ViewName(r.value) == s
  {
    if s == "auth" then Some(AuthScreen)
    else if s == "dashboard" then Some(DashboardScreen)
    else if s == "tracker" then Some(TrackerScreen)
    else if s == "new-session" then Some(NewSessionScreen)
    else if s == "active-session" then Some(ActiveSessionScreen)
    else if s == "history" then Some(HistoryScreen)
    else if s == "session-details" then Some(SessionDetailsScreen)
    else if s == "profile-wizard" then Some(ProfileWizardScreen)
    else if s == "chat" then Some(ChatScreen)
    else if s == "profile" then Some(ProfileScreen)
    else None
  }

  lemma ViewNameRoundTrip(v: ViewState)
    ensures ParseViewName(ViewName(v)) == Some(v)
  {
  }

  datatype User = User(id: string, name: string, email: string, avatarUrl: Option<string>)

  /** One performed set. `reps` is always a number; `weight` (kg) and
      `time` (seconds) may be null. Numbers are whole numbers here. */
  datatype SetData = SetData(id: string, reps: int, weight: Option<int>, time: Option<int>, completed: bool)

  datatype MediaKind = Image | Video

  datatype ExerciseData = ExerciseData(
    id: string,
    name: string,
    sets: seq<SetData>,
    isTimed: bool,
    mediaUrl: Option<string>,
    mediaType: Option<MediaKind>,
    targetReps: Option<string>,
    targetSets: Option<int>,
    notes: Option<string>)

  /** A finished session. Its `sessionType` is `SessionType | string`,
      which at run time is a string. `date` is the start instant in
      milliseconds since the epoch. */
  datatype Session = Session(
    id: string,
    date: int,
    sessionType: string,
    durationMinutes: nat,
    exercises: seq<ExerciseData>,
    isCircuit: Option<bool>,
    notes: Option<string>)

  datatype UserProfile = UserProfile(
    name: string,
    age: int,
    sport: string,
    experienceLevel: ExperienceLevel,
    goals: string,
    injuries: string,
    frequency: int,
    aiCoaching: bool)

  datatype ProgramExercise = ProgramExercise(name: string, sets: int, reps: string, rest: Option<string>, notes: Option<string>)

  datatype DailyPlan = DailyPlan(
    day: string,
    focus: string,
    sessionType: SessionType,
    exercises: seq<ProgramExercise>,
    isRestDay: bool,
    completed: bool)

  datatype WeeklyPlan = WeeklyPlan(id: string, weekStartDate: string, days: seq<DailyPlan>, generatedAt: string)

  datatype Template = Template(
    id: string,
    name: string,
    sessionType: SessionType,
    description: string,
    defaultExercises: seq<string>,
    detailedExercises: Option<seq<ProgramExercise>>)
}
